=== FILE: README.md ===
# AutoBrief ingestion core, modelled in Dafny

AutoBrief keeps per-group knowledge bases. A document uploaded into a project group is queued as a job; one worker consumes the queue one message at a time. For each job it loads the document, indexes its chunks in the group's vector collection, writes a summary row, and creates or replaces the group's mind map. The front end reads the stored mind map back and flattens it into nodes and edges for drawing, and it formats chat answers with their sources.

The model keeps the decision logic and treats every external service as an oracle: a parameter that either yields a value or fails. This covers the document loader, the text splitter, the vector store, the language model, the database connection and individual statements, and the filesystem. The state the worker and the group operations share is one immutable `Store`. It holds the set of existing group directories, the `project_groups`, `summaries` and `mindmaps` tables as sequences in insertion order, and the vector collections.

Modules, one per concern:

- `Base` (base.dfy): `Option`, `Result` and the exception kinds.
- `Json` (json.dfy): decoded JSON values, dict lookup (the last duplicate key wins) and Python truthiness.
- `Paths` (paths.dfy): `os.path.join` and `os.path.basename` on POSIX paths.
- `Text` (text.dfy): `"\n\n".join` and `str.strip`.
- `MindMap` (mindmap.dfy): the `MindMapNode`/`MindMapTool` schema, validation of tool-call arguments, and serialization.
- `Graph` (graph.dfy): `build_mindmap_graph` and its reference definitions.
- `Store` (store.dfy): the shared state and the group operations in `crud_project_group.py`.
- `Stages` (stages.dfy): `process_for_rag`, `process_for_summary` and `process_for_mindmap`.
- `Worker` (worker.dfy): the queue `callback` and sequential consumption.
- `Chat` (chat.dfy): the chat reply text.

## Model

| member | source | states |
|---|---|---|
| `Json.Get` | core/app/worker.py:17-18 | `d.get(key)` is `None` exactly when no member has the key. Otherwise it is the value of the last member with that key, as the dict built by `json.loads` keeps the last duplicate. |
| `Json.FalsyValues` | core/services/document_processor.py:136 | A stored value is falsy exactly when it is `None`, `False`, `0`, `""`, `[]` or `{}`. |
| `Paths.PathJoin` | core/app/worker.py:19 | An absolute second part replaces the first. Otherwise the result is the first part, then nothing or exactly one `/`, then the second part. Nothing is inserted exactly when the first part is empty or already ends in `/`. |
| `Paths.DocumentPath` | core/app/worker.py:19 | The job's document path ends with the file name. An absolute file name is the whole path. |
| `Paths.DocumentPathShape` | core/app/worker.py:19 | With a base that has no trailing slash and relative names, the job's document path is exactly `base/group/file`. |
| `Paths.BasenameOfDocumentPath` | core/services/document_processor.py:84 | The file name the summary stage records equals the envelope's file name whenever that name has no '/'. |
| `Paths.Basename` | core/services/document_processor.py:84 | The recorded name holds no `/` and is no longer than the path. |
| `Paths.BasenameOfSlashed` | core/services/document_processor.py:84 | Any prefix put before a text that holds a `/` leaves its basename unchanged. |
| `Paths.NestedFileNameIsCut` | core/services/document_processor.py:84 | For every base and group, a file name that contains `/` is recorded as the file name's own last component. |
| `Paths.NestedFileNameExample` | core/services/document_processor.py:84 | For example, `sub/a.txt` is recorded as `a.txt`. |
| `Text.JoinAppend` | core/services/document_processor.py:41 | Joining two non-empty element lists puts exactly one separator between the two joined texts. |
| `Text.FullText` | core/services/document_processor.py:41 | The full text of no elements is empty. Otherwise its length is the elements' total length plus two characters per separator. |
| `Text.JoinLength` | core/services/document_processor.py:68 | The full text's length is the total of the element lengths plus one separator between each pair of neighbours. |
| `Text.FullTextBounds` | core/app/worker.py:29 | The full text starts with the first loaded element and ends with the last one. |
| `Text.Strip` | core/services/document_processor.py:79 | The stripped summary neither starts nor ends with whitespace. It is empty exactly when the reply is all whitespace. |
| `Text.StripIsSlice` | core/services/document_processor.py:79 | The stripped summary is one contiguous slice of the reply, and only whitespace lies outside that slice. |
| `Text.StripIdempotent` | core/services/document_processor.py:79 | Stripping a stripped summary changes nothing. |
| `MindMap.ValidateNode` | core/services/document_processor.py:17-21 | An object whose `topic` is a string and whose `children` is missing or null is accepted as a leaf. An object with a string `topic` and an array of `children` that all validate is accepted, and the i-th child is the i-th item validated, in order. Every accepted value is such an object, and every rejection is a validation error. |
| `MindMap.ValidateTool` | core/services/document_processor.py:24-27 | Non-mapping arguments raise `TypeError`. A missing `mindmap` member is a validation error. Otherwise the payload is accepted exactly when its `mindmap` member validates, and its root is that validated node. |
| `MindMap.DumpTool` | core/services/document_processor.py:180 | The stored document is a truthy object whose `mindmap` member is the serialized root. |
| `MindMap.ResponseRoundTrip` | core/services/document_processor.py:179-180 | A response whose first tool call carries a serialized tree parses to that tree, whatever follows. A response with no tool call raises `IndexError`. |
| `MindMap.ToolRoundTrip` | core/services/document_processor.py:180 | Validating the stored serialization of a tree gives back that tree. |
| `MindMap.BadChildRejects` | core/services/document_processor.py:19-21 | One invalid child anywhere in the list rejects the whole node. |
| `Graph.Traverse` | streamlit/app.py:116-127 | A visit only appends to the node and edge lists. The visited topic is in the node list, and a new topic lands right after the existing nodes. |
| `Graph.BuildGraph` | streamlit/app.py:111-130 | The root topic is the first node. |
| `Graph.TraverseSpec` | streamlit/app.py:116-127 | The recursive walk adds the de-duplicated pre-order topics to the node list. It adds the in-edge, then the subtree's edges in pre-order, to the edge list. |
| `Graph.BuildGraphSpec` | streamlit/app.py:111-130 | Node ids are pairwise distinct and are exactly the tree's topics, in order of first pre-order occurrence. Every edge joins two node ids. The root has no edge of its own. |
| `Graph.EdgeEndsAreTopics` | streamlit/app.py:122-123 | Every edge runs from a topic of the tree to a topic of the tree. |
| `Graph.EdgeCount` | streamlit/app.py:122-127 | When no topic is empty, there is exactly one edge per non-root node occurrence, repeats included. |
| `Graph.LeafContributesItself` | streamlit/app.py:125-127 | A node whose children are `None` or empty adds only its own topic (if new) and its in-edge. |
| `Graph.RepeatedTopicRepeatsEdge` | streamlit/app.py:119-123 | A topic that appears twice under one parent gives one node and two identical edges. |
| `Store.FindGroup` | core/crud/crud_project_group.py:13-15 | Returns the first `project_groups` row with the name, or `None` exactly when no row has it. |
| `Store.RemoveNamed` | core/crud/crud_project_group.py:52-54 | No remaining row has the name. Every remaining row was stored before, and every row with another name remains. |
| `Store.GetProjectGroupByName` | core/crud/crud_project_group.py:9-17 | Returns a stored row with that name, or `None` exactly when no row has the name. |
| `Store.CreateProjectGroup` | core/crud/crud_project_group.py:20-38 | If the directory exists: `None`, nothing changes. Otherwise a database error is raised exactly when the cursor, insert or commit fails; then rollback, nothing changes. When those succeed, an `OSError` is raised exactly when the directory cannot be made, with the committed row kept. On success the row is appended with the next id, the directory is created, and the row is returned. Summaries and mind maps are never touched. |
| `Store.CreateThenFind` | core/crud/crud_project_group.py:28-33 | After a successful create of a new name, lookup by that name returns the new row. |
| `Store.DeleteProjectGroup` | core/crud/crud_project_group.py:41-60 | If the directory is absent: `False`, nothing changes. Otherwise a database error is raised exactly when the cursor, delete or commit fails; then rollback, nothing changes. When those succeed, the result is `True` exactly when the tree is removed. Otherwise an `OSError` is raised with the rows already deleted. On success the groups table is exactly the old one with the named rows removed (every other row kept, none added), and the directory tree is removed. Summaries, mind maps and collections are never touched. |
| `Store.DeleteThenRead` | core/crud/crud_project_group.py:51-55 | After a successful delete, the group lookup, `get_mindmap` and `get_summaries` return `None`, `None` and `[]`. |
| `Store.FirstMindMap` | core/crud/crud_project_group.py:73-75 | Returns the value of the first `mindmaps` row for the id (possibly NULL), or `None` exactly when the id has no row. |
| `Store.FirstMindMapAfterNew` | core/crud/crud_project_group.py:73-75 | A row appended for a group that had no row is the one the lookup returns. |
| `Store.GetMindmap` | core/crud/crud_project_group.py:63-78 | An unknown group gives `None`. Otherwise the result is the group's first row value. It is `None` exactly when the group has no row. |
| `Store.SummariesOf` | core/crud/crud_project_group.py:91-93 | Every summary row of the group appears as a `(file_name, summary)` pair, and every pair comes from such a row. |
| `Store.GetSummaries` | core/crud/crud_project_group.py:81-96 | An unknown group gives `[]`. Otherwise every summary row of the group appears, and nothing from another group. |
| `Store.SummariesOfAppend` | core/crud/crud_project_group.py:91-93 | After a row is appended for a group, that group's list is the old list plus the new pair, with no deduplication. |
| `Store.SummariesOfOther` | core/crud/crud_project_group.py:91-93 | A row appended for another group leaves this group's list unchanged. |
| `Stages.ProcessForRag` | core/services/document_processor.py:34-59 | Loader and vector-store failures propagate. On success, the split chunks of the full text are appended to the collection named after the group. No other collection is created or changed, and no other table changes. |
| `Stages.ProcessForSummary` | core/services/document_processor.py:61-109 | Load failures, model failures and a cursor failure propagate with no write. A missing group or a failing statement rolls back and returns normally. Otherwise exactly one row `(group id, basename, stripped summary)` is appended. |
| `Stages.SummaryIgnoresExistingRows` | core/services/document_processor.py:91-101 | The row the stage appends, and its result, do not depend on which summaries are already stored. |
| `Stages.SummaryTwiceKeepsBoth` | core/services/document_processor.py:96-101 | Two successful runs for the same file append both `(file name, summary)` pairs to `get_summaries`, in run order, whatever each model call answered. Nothing is deduplicated or overwritten. |
| `Stages.ReplaceDataLookup` | core/services/document_processor.py:182-184 | After the `UPDATE`, the group's lookup returns the new data if the group had a row and nothing otherwise. Every other group's lookup is unchanged. |
| `Stages.ExistingCell` | core/services/document_processor.py:127-134 | The stored value the stage sees is the value of the group's first row, which may be NULL. A group without rows gives `None`. |
| `Stages.RequestForCases` | core/services/document_processor.py:127-153 | No row, a NULL row or a falsy value asks for a new tree. A truthy value asks for a merge with exactly that value. |
| `Stages.ProcessForMindmap` | core/services/document_processor.py:111-201 | A cursor failure propagates. A missing group returns with no write. A failing select, write or commit is swallowed with the store unchanged. When no step fails and the model returns valid tool arguments, the run creates or updates with those arguments' tree. `Created` means the stored value was not truthy and one row holding the serialized tree was appended. `Updated` means it was truthy and every row of the group was replaced. Only the mind-map table ever changes. |
| `Stages.FirstMindMapIsInserted` | core/services/document_processor.py:188-193 | For a group with no row, a run that succeeds inserts a row, not an update. `get_mindmap` then returns the serialized tree, which validates back to the returned tree. |
| `Stages.StoredMapIsMerged` | core/services/document_processor.py:136-187 | Once a serialized tree is stored, the next successful run merges with it and replaces all of the group's rows. |
| `Stages.NullRowShadowsNewTree` | core/services/document_processor.py:129-136 | A NULL first row is not truthy. The stage inserts a second row, and `get_mindmap` still returns NULL. |
| `Stages.FirstMindMapPrefix` | core/services/document_processor.py:127-129 | Rows appended after the first match do not change what the lookup returns. |
| `Stages.MindMapModelFailureChangesNothing` | core/services/document_processor.py:155-199 | Model-call failures, a missing tool call and invalid tool arguments are all swallowed, and every table is left as it was. |
| `Worker.ParseBody` | core/app/worker.py:16-19 | Non-JSON bodies raise a decoding error. Non-object bodies raise `AttributeError`. A missing or non-string field raises `TypeError`. Otherwise both fields are read. |
| `Worker.EnvelopeRoundTrip` | core/api/v1/project_groups.py:135-138 | The message the upload handler publishes is read back as the same group and file. |
| `Worker.Callback` | core/app/worker.py:13-42 | The callback decides nothing exactly when parsing or connecting fails before the `try`; then nothing is closed and nothing changes. The connection is closed exactly when the callback acks or nacks. Stages start in the fixed order. An ack follows all four stages. |
| `Worker.AckExactly` | core/app/worker.py:24-39 | A job is acked exactly when parsing and connecting succeed and no stage lets an exception out. It is nacked exactly when parsing and connecting succeed and some stage does. |
| `Worker.NackNamesFailingStage` | core/app/worker.py:27-39 | On a nack, the last stage started is the one whose exception escaped. |
| `Worker.NackKeepsIndexedChunks` | core/app/worker.py:31-39 | Indexing commits before the later stages. A summary-load failure nacks the job but keeps the new chunks. |
| `Worker.MindMapFailureStillAcks` | core/app/worker.py:32-36 | Mind-map model or validation failures still end in an ack, and the mind maps are unchanged. |
| `Worker.SummaryDbFailureStillAcks` | core/services/document_processor.py:105-107 | A failing summary statement still ends in an ack, with no summary row added. |
| `Worker.DeletedGroupWritesNothing` | core/services/document_processor.py:119-124 | A job whose group row is gone writes no summary and no mind map, and is acked when nothing else fails. |
| `Worker.SummaryRowNamesEnvelopeFile` | core/app/worker.py:17-19 | The one summary row a job adds names the envelope's file when that name has no '/'. |
| `Worker.Consume` | core/app/worker.py:53-56 | Deliveries are handled one at a time, each on the store its predecessor left and decided before the next. Only the last handled delivery can have escaped. Consumption stops early only at such an escape. |
| `Worker.RunWorker` | core/app/worker.py:53-56 | When every message parses and connects, every delivery is decided, in order. |
| `Chat.Preview` | streamlit/app.py:218 | Keeps at most 100 characters, always a prefix of the content. Content of 100 characters or fewer is kept whole. |
| `Chat.SourceLine` | streamlit/app.py:217-218 | Each source line is `"- "`, then the preview of the content (empty when the content is missing), then `"...\n"`. It holds between 6 and 106 characters. |
| `Chat.FormatReply` | streamlit/app.py:209-218 | With no sources, the reply is the answer (or the default). Otherwise it is the answer, the header, then one line per source in order. The length lies between 6 and 106 characters per source beyond the answer and the header. |
| `Chat.SourceLinesAppend` | streamlit/app.py:216-218 | Source lines follow the order of the sources. |
| `Chat.LongSourceIsCut` | streamlit/app.py:218 | A source longer than 100 characters shows exactly its first 100. |

## Left out

- Language-model prompts and the content of summaries and mind maps. These are model semantics; the model calls are oracle functions of the text or request they receive.
- The recursive character splitter's algorithm. It is an oracle; only its parameters (1000, 200, the separators) are recorded as constants.
- Embeddings and the vector store's behaviour. A failed upsert is modelled as changing nothing, so partial upserts are not modelled.
- Message-queue connection setup, heartbeats, durability and broker redelivery. Only the ack/nack/neither decision and sequential consumption are modelled. A failure of `basic_ack` itself is not modelled.
- Real SQL. Tables are sequences in insertion order. A lookup's "first row" is the first in that order, although PostgreSQL promises no order without `ORDER BY`. Rollback restores the pre-operation snapshot, and a failing `rollback` is not modelled.
- Store.CreateProjectGroup: a failed insert also rolls back the id counter, whereas a database sequence would not. `os.makedirs` creating missing parent directories is not modelled.
- Store.DeleteProjectGroup: `shutil.rmtree` is modelled as removing the directory and every path under it at once; a partial removal before an error is not modelled.
- Store.GetProjectGroupByName, Store.GetMindmap, Store.GetSummaries: cursor and statement failures are not modelled for the read helpers.
- The HTTP endpoints, configuration loading, the database connection factory, and the Streamlit rendering, session state and HTTP helpers. Only the envelope's field names are taken from the upload endpoint.
- JSON text encoding. The stored mind map is the JSON value that serialization produces. Whether the column is text or JSON is not visible, so reading it back is the identity.
- Worker.Consume: does not model the HTTP endpoints that create and delete groups and upload files (core/api/v1/project_groups.py:49-78 and 102-150). They write the same table and directories concurrently, between and during jobs. In the model each delivery sees exactly the store the previous one left.
- Group directories are a set of path strings compared as written, so `os.path.exists` and `shutil.rmtree` lose path normalization. `g/`, `./g` and `a/../g` count as paths distinct from `g`, and group names are not checked for such forms.
- Schema constraints: foreign keys, `ON DELETE CASCADE` and a `UNIQUE` group name are not part of the visible code, so the model enforces none of them.
- The loader oracles are parameters and are not tied to `Store.dirs`. A load succeeding after the group's directory was removed is therefore possible in the model; which loads succeed is stated in each lemma's requires.
- JSON numbers are integers only. A tool argument that pydantic would coerce from another type is not modelled; strings and lists are required as written.

## Behaviour worth knowing

Each of these follows from the code and is stated by the members named.

- The worker loads the document three times: in the callback, in the indexing stage and in the summary stage. The model has three independent loader oracles.
- A failure while writing a summary is rolled back and swallowed, so the job is still acked (`Worker.SummaryDbFailureStillAcks`).
- A job whose group row is gone writes no summary and no mind map. It is acked when every load of the document still succeeds, for example when `rmtree` raised after the delete committed (`Worker.DeletedGroupWritesNothing`). After a complete delete the directory is gone, so the callback's own load (core/app/worker.py:27-28) normally fails and the job is nacked. In the mind-map stage, model and validation failures and statement and commit failures are swallowed, so the job is still acked (`Worker.MindMapFailureStillAcks`, `Stages.ProcessForMindmap`, `Worker.AckExactly`). A failure to open the cursor happens before the `try` and escapes, so the job is nacked.
- The mind-map stage chooses between insert and update by whether the stored value is truthy, not by whether a row exists. Its `UPDATE` replaces every row of the group (`Stages.RequestForCases`, `Stages.NullRowShadowsNewTree`).
- Deleting a group issues only a `DELETE FROM project_groups` and removes its directory. The code deletes nothing else: no statement touches summaries, mind maps or the vector collection (`Store.DeleteProjectGroup`). Whether the database removes those rows itself depends on its schema.
- A job is not atomic. Indexing commits its chunks before the summary stage reloads the document, so a later failure nacks the job but keeps the chunks (`Worker.NackKeepsIndexedChunks`).

=== FILE: base.dfy ===
/** Failure-carrying wrappers shared by every module of the model.

    Python signals failure by raising; the model returns a `Result` whose
    `Raised` arm names the kind of exception that escaped. */
module Base {

  datatype Option<+T> = None | Some(value: T)

  /** The exception kinds that the modelled code can raise or catch. */
  datatype Fault =
    | JsonDecodeError     // json.loads on a body that is not JSON
    | AttributeError      // `.get` on a decoded body that is not an object
    | TypeError           // None or a non-string handed to os.path.join, `**` of a non-mapping, indexing None
    | IndexError          // `tool_calls[0]` on an empty tool-call list
    | ValidationError     // pydantic rejects the tool arguments
    | LoaderError         // the document loader could not read the file
    | VectorStoreError    // the vector store rejected the upsert
    | LlmError            // the language-model call failed
    | DbError             // a database statement, cursor or connection failed
    | OsError             // a filesystem call failed

  datatype Result<+T> = Ok(value: T) | Raised(fault: Fault)
}

=== FILE: chat.dfy ===
/** The front end's chat reply text: the answer, then — when the response
    lists sources — a reference header and one line per source showing at
    most the first hundred characters of its content. */
module Chat {
  import opened Base

  /** The answer shown when the response carries none. */
  const DefaultAnswer: string := "죄송합니다, 답변을 생성할 수 없습니다."

  /** The header put between the answer and the source lines. */
  const SourcesHeader: string := "\n\n--- \n**참고 자료:**\n"

  /** How many characters of a source's content are shown. */
  const PreviewLength: nat := 100

  /** The decoded chat response: `answer` may be missing, `sources` holds
      each source's `content`, which may be missing too. */
  datatype ChatResponse = ChatResponse(answer: Option<string>, sources: seq<Option<string>>)

  /** `content[:100]`. */
  function Preview(content: string): (r: string)
    ensures |r| <= PreviewLength && r <= content
    ensures |content| <= PreviewLength ==> r == content
  {
    if |content| <= PreviewLength then content else content[..PreviewLength]
  }

  /** The line shown for one source; a missing content shows as empty. */
  function SourceLine(content: Option<string>): (r: string)
    ensures 6 <= |r| <= PreviewLength + 6
    ensures r[..2] == "- " && r[|r| - 4..] == "...\n"
    ensures content.Some? ==> r[2..|r| - 4] == Preview(content.value)
    ensures content.None? ==> r == "- ...\n"
  {
    var c := match content case None => "" case Some(s) => s;
    "- " + Preview(c) + "...\n"
  }

  /** The source lines, in source order. */
  function SourceLines(sources: seq<Option<string>>): string {
    if |sources| == 0 then "" else SourceLine(sources[0]) + SourceLines(sources[1..])
  }

  function AnswerOf(resp: ChatResponse): string {
    match resp.answer case None => DefaultAnswer case Some(a) => a
  }

  /** The reply, built as the front end does: start from the answer and
      append the header and each source line in turn. */
  method FormatReply(resp: ChatResponse) returns (reply: string)
    ensures |resp.sources| == 0 ==> reply == AnswerOf(resp)
    ensures |resp.sources| > 0 ==> reply == AnswerOf(resp) + SourcesHeader + SourceLines(resp.sources)
    ensures |resp.sources| > 0 ==>
      |AnswerOf(resp)| + |SourcesHeader| + 6 * |resp.sources| <= |reply|
      <= |AnswerOf(resp)| + |SourcesHeader| + (PreviewLength + 6) * |resp.sources|
  {
    reply := AnswerOf(resp);
    if |resp.sources| > 0 {
      reply := reply + SourcesHeader;
      var i := 0;
      while i < |resp.sources|
        invariant 0 <= i <= |resp.sources|
        invariant reply + SourceLines(resp.sources[i..]) == AnswerOf(resp) + SourcesHeader + SourceLines(resp.sources)
        invariant |AnswerOf(resp)| + |SourcesHeader| + 6 * i <= |reply| <= |AnswerOf(resp)| + |SourcesHeader| + (PreviewLength + 6) * i
      {
        LineStep(reply, resp.sources, i);
        reply := reply + SourceLine(resp.sources[i]);
        i := i + 1;
      }
      assert resp.sources[i..] == [];
    }
  }

  /** Appending the line of source `i` to a reply moves it one source further along the lines. */
  lemma LineStep(reply: string, sources: seq<Option<string>>, i: nat)
    requires i < |sources|
    ensures (reply + SourceLine(sources[i])) + SourceLines(sources[i + 1..]) == reply + SourceLines(sources[i..])
  {
    assert sources[i..][1..] == sources[i + 1..];
  }

  /** The source lines of two runs of sources are the lines of each, in order. */
  lemma {:induction false} SourceLinesAppend(a: seq<Option<string>>, b: seq<Option<string>>)
    ensures SourceLines(a + b) == SourceLines(a) + SourceLines(b)
  {
    if |a| == 0 {
      assert a + b == b;
    } else {
      assert (a + b)[1..] == a[1..] + b;
      SourceLinesAppend(a[1..], b);
      assert SourceLines(a + b) == SourceLine(a[0]) + SourceLines(a[1..] + b);
    }
  }

  /** A long source shows exactly its first hundred characters. */
  lemma LongSourceIsCut(content: string)
    requires |content| > PreviewLength
    ensures SourceLine(Some(content)) == "- " + content[..PreviewLength] + "...\n"
    ensures |SourceLine(Some(content))| == PreviewLength + 6
  {
  }
}

=== FILE: graph.dfy ===
/** The front end's flattening of a stored mind map into a node list and an
    edge list for drawing: a pre-order walk that adds each topic once and one
    edge per child visited under a non-empty parent topic. */
module Graph {
  import opened Base
  import opened MindMap

  datatype Edge = Edge(source: string, target: string)

  /** Node ids (topics) in insertion order, and edges in emission order. */
  datatype Graph = Graph(nodes: seq<string>, edges: seq<Edge>)

  /** The edge into a node visited with parent id `parent`, when the parent id is truthy. */
  function InEdge(parent: Option<string>, topic: string): seq<Edge> {
    if parent.Some? && parent.value != "" then [Edge(parent.value, topic)] else []
  }

  /** The walk only ever appends: `r` keeps every node and edge of `g`, in place. */
  predicate Extends(r: Graph, g: Graph) {
    |r.nodes| >= |g.nodes| && r.nodes[..|g.nodes|] == g.nodes
    && |r.edges| >= |g.edges| && r.edges[..|g.edges|] == g.edges
  }

  /** One visit of a node: add its topic unless present, add the edge from its
      parent, then visit its children in order when the list is non-empty. */
  function Traverse(n: MindMapNode, parent: Option<string>, g: Graph): (r: Graph)
    ensures Extends(r, g) && n.topic in r.nodes
    ensures n.topic !in g.nodes ==> r.nodes[|g.nodes|] == n.topic
    decreases n, 1, 0
  {
    var id := n.topic;
    var nodes := if id in g.nodes then g.nodes else g.nodes + [id];
    var g1 := Graph(nodes, g.edges + InEdge(parent, id));
    if n.children.Present? && |n.children.nodes| > 0 then
      var r := TraverseChildren(n, 0, g1);
      ExtendsTrans(r, g1, g);
      assert id in r.nodes[..|g1.nodes|];
      if id in g.nodes then r else ExtendsKeeps(r, g1, |g.nodes|); r
    else g1
  }

  /** Visit children `i..` of `n` with `n`'s topic as their parent id. */
  function TraverseChildren(n: MindMapNode, i: nat, g: Graph): (r: Graph)
    requires n.children.Present? && i <= |n.children.nodes|
    ensures Extends(r, g)
    decreases n, 0, |n.children.nodes| - i
  {
    if i == |n.children.nodes| then g
    else
      var g1 := Traverse(n.children.nodes[i], Some(n.topic), g);
      var r := TraverseChildren(n, i + 1, g1);
      ExtendsTrans(r, g1, g);
      r
  }

  lemma ExtendsTrans(a: Graph, b: Graph, c: Graph)
    requires Extends(a, b) && Extends(b, c)
    ensures Extends(a, c)
  {
    assert a.nodes[..|c.nodes|] == a.nodes[..|b.nodes|][..|c.nodes|];
    assert a.edges[..|c.edges|] == a.edges[..|b.edges|][..|c.edges|];
  }

  lemma ExtendsKeeps(a: Graph, b: Graph, k: nat)
    requires Extends(a, b) && k < |b.nodes|
    ensures a.nodes[k] == b.nodes[k]
  {
    assert a.nodes[..|b.nodes|][k] == a.nodes[k];
  }

  /** The graph of a tool payload, walked from its root with no parent. */
  function BuildGraph(t: MindMapTool): (r: Graph)
    ensures |r.nodes| > 0 && r.nodes[0] == t.mindmap.topic
  {
    Traverse(t.mindmap, None, Graph([], []))
  }

  // ---------------------------------------------------------------------------
  // Reference definitions, written without accumulators

  function Concat<T>(xss: seq<seq<T>>): seq<T> {
    if |xss| == 0 then [] else xss[0] + Concat(xss[1..])
  }

  /** Every topic of the tree, in pre-order, repetitions included. */
  function PreOrder(n: MindMapNode): seq<string>
    decreases n
  {
    [n.topic] + match n.children
      case Absent => []
      case Present(cs) => Concat(seq(|cs|, i requires 0 <= i < |cs| => PreOrder(cs[i])))
  }

  /** The edge from a parent topic to a child, kept only under a non-empty parent topic. */
  function ChildEdge(parent: string, child: MindMapNode): seq<Edge> {
    if parent != "" then [Edge(parent, child.topic)] else []
  }

  /** What the subtree under child `c` of a node with topic `p` contributes: its in-edge, then its own edges. */
  function Branch(p: string, c: MindMapNode): seq<Edge>
    decreases c, 1
  {
    ChildEdge(p, c) + EdgesOf(c)
  }

  /** Every parent-to-child edge of the tree, in pre-order of the child. */
  function EdgesOf(n: MindMapNode): seq<Edge>
    decreases n, 0
  {
    match n.children
    case Absent => []
    case Present(cs) => Concat(seq(|cs|, i requires 0 <= i < |cs| => Branch(n.topic, cs[i])))
  }

  /** `xs` added to `acc` element by element, skipping those already present: first occurrences, in order. */
  function Dedup<T(==)>(acc: seq<T>, xs: seq<T>): seq<T>
    decreases |xs|
  {
    if |xs| == 0 then acc
    else Dedup(if xs[0] in acc then acc else acc + [xs[0]], xs[1..])
  }

  predicate NoDup<T(==)>(s: seq<T>) {
    forall i, j :: 0 <= i < j < |s| ==> s[i] != s[j]
  }

  predicate NonEmptyTopics(n: MindMapNode)
    decreases n
  {
    n.topic != "" &&
    match n.children
    case Absent => true
    case Present(cs) => forall i :: 0 <= i < |cs| ==> NonEmptyTopics(cs[i])
  }

  // ---------------------------------------------------------------------------
  // Helper facts

  lemma {:induction false} ConcatSplit<T>(xss: seq<seq<T>>, i: nat)
    requires i < |xss|
    ensures Concat(xss[i..]) == xss[i] + Concat(xss[i + 1..])
  {
    assert xss[i..][1..] == xss[i + 1..];
  }

  lemma {:induction false} ConcatMember<T>(xss: seq<seq<T>>, x: T)
    ensures x in Concat(xss) <==> exists i :: 0 <= i < |xss| && x in xss[i]
  {
    if |xss| > 0 {
      ConcatMember(xss[1..], x);
      if x in Concat(xss[1..]) {
        var i :| 0 <= i < |xss[1..]| && x in xss[1..][i];
        assert x in xss[i + 1];
      }
      forall i | 0 < i < |xss| && x in xss[i] ensures x in Concat(xss[1..]) {
        assert xss[1..][i - 1] == xss[i];
      }
    }
  }

  lemma {:induction false} ConcatSameLengths<T, U>(a: seq<seq<T>>, b: seq<seq<U>>)
    requires |a| == |b| && forall i :: 0 <= i < |a| ==> |a[i]| == |b[i]|
    ensures |Concat(a)| == |Concat(b)|
  {
    if |a| > 0 {
      ConcatSameLengths(a[1..], b[1..]);
    }
  }

  lemma {:induction false} DedupAppend<T>(acc: seq<T>, xs: seq<T>, ys: seq<T>)
    ensures Dedup(acc, xs + ys) == Dedup(Dedup(acc, xs), ys)
    decreases |xs|
  {
    if |xs| == 0 {
      assert xs + ys == ys;
    } else {
      assert (xs + ys)[1..] == xs[1..] + ys;
      DedupAppend(if xs[0] in acc then acc else acc + [xs[0]], xs[1..], ys);
    }
  }

  lemma {:induction false} DedupProps<T>(acc: seq<T>, xs: seq<T>)
    requires NoDup(acc)
    ensures NoDup(Dedup(acc, xs))
    ensures forall x :: x in Dedup(acc, xs) <==> x in acc || x in xs
    ensures |Dedup(acc, xs)| >= |acc| && Dedup(acc, xs)[..|acc|] == acc
    decreases |xs|
  {
    if |xs| > 0 {
      var acc' := if xs[0] in acc then acc else acc + [xs[0]];
      DedupProps(acc', xs[1..]);
      assert forall x :: x in xs <==> x == xs[0] || x in xs[1..];
      assert Dedup(acc', xs[1..])[..|acc|] == acc' [..|acc|];
    }
  }

  // ---------------------------------------------------------------------------
  // The walk computes the reference definitions

  /** The child pre-orders and the child branches of a node with children. */
  function ChildOrders(n: MindMapNode): (r: seq<seq<string>>)
    requires n.children.Present?
    ensures |r| == |n.children.nodes|
    ensures forall i :: 0 <= i < |r| ==> r[i] == PreOrder(n.children.nodes[i])
  {
    var cs := n.children.nodes;
    seq(|cs|, i requires 0 <= i < |cs| => PreOrder(cs[i]))
  }

  function ChildBranches(n: MindMapNode): (r: seq<seq<Edge>>)
    requires n.children.Present?
    ensures |r| == |n.children.nodes|
    ensures forall i :: 0 <= i < |r| ==> r[i] == Branch(n.topic, n.children.nodes[i])
  {
    var cs := n.children.nodes;
    seq(|cs|, i requires 0 <= i < |cs| => Branch(n.topic, cs[i]))
  }

  lemma {:induction false} TraverseSpec(n: MindMapNode, parent: Option<string>, g: Graph)
    ensures Traverse(n, parent, g)
      == Graph(Dedup(g.nodes, PreOrder(n)), g.edges + InEdge(parent, n.topic) + EdgesOf(n))
    decreases n, 1, 0
  {
    var id := n.topic;
    var nodes := if id in g.nodes then g.nodes else g.nodes + [id];
    var g1 := Graph(nodes, g.edges + InEdge(parent, id));
    assert Dedup(g.nodes, [id]) == nodes;
    match n.children
    case Absent =>
      assert PreOrder(n) == [id];
    case Present(cs) =>
      assert PreOrder(n) == [id] + Concat(ChildOrders(n));
      assert EdgesOf(n) == Concat(ChildBranches(n));
      DedupAppend(g.nodes, [id], Concat(ChildOrders(n)));
      if |cs| == 0 {
        assert ChildOrders(n) == [];
        assert ChildBranches(n) == [];
      } else {
        TraverseChildrenSpec(n, 0, g1);
        assert ChildOrders(n)[0..] == ChildOrders(n);
        assert ChildBranches(n)[0..] == ChildBranches(n);
      }
  }

  lemma {:induction false} TraverseChildrenSpec(n: MindMapNode, i: nat, g: Graph)
    requires n.children.Present? && i <= |n.children.nodes|
    ensures TraverseChildren(n, i, g)
      == Graph(Dedup(g.nodes, Concat(ChildOrders(n)[i..])), g.edges + Concat(ChildBranches(n)[i..]))
    decreases n, 0, |n.children.nodes| - i
  {
    var cs := n.children.nodes;
    if i == |cs| {
      assert ChildOrders(n)[i..] == [];
      assert ChildBranches(n)[i..] == [];
    } else {
      var c := cs[i];
      var g1 := Traverse(c, Some(n.topic), g);
      assert TraverseChildren(n, i, g) == TraverseChildren(n, i + 1, g1);
      TraverseSpec(c, Some(n.topic), g);
      TraverseChildrenSpec(n, i + 1, g1);
      ChildStep(n, i, g, g1, TraverseChildren(n, i + 1, g1));
    }
  }

  /** Visiting child `i` and then the later children adds what children `i..` contribute. */
  lemma {:induction false} ChildStep(n: MindMapNode, i: nat, g: Graph, g1: Graph, r: Graph)
    requires n.children.Present? && i < |n.children.nodes|
    requires var c := n.children.nodes[i];
      g1 == Graph(Dedup(g.nodes, PreOrder(c)), g.edges + InEdge(Some(n.topic), c.topic) + EdgesOf(c))
    requires r == Graph(Dedup(g1.nodes, Concat(ChildOrders(n)[i + 1..])), g1.edges + Concat(ChildBranches(n)[i + 1..]))
    ensures r == Graph(Dedup(g.nodes, Concat(ChildOrders(n)[i..])), g.edges + Concat(ChildBranches(n)[i..]))
  {
    var c := n.children.nodes[i];
    assert ChildOrders(n)[i] == PreOrder(c);
    NodesStep(g.nodes, ChildOrders(n), i);
    assert ChildBranches(n)[i] == InEdge(Some(n.topic), c.topic) + EdgesOf(c);
    EdgesStep(g.edges, ChildBranches(n), i);
  }

  /** One child's pre-order, then the later children's, deduplicated in two steps. */
  lemma {:induction false} NodesStep(acc: seq<string>, orders: seq<seq<string>>, i: nat)
    requires i < |orders|
    ensures Dedup(Dedup(acc, orders[i]), Concat(orders[i + 1..])) == Dedup(acc, Concat(orders[i..]))
  {
    ConcatSplit(orders, i);
    DedupAppend(acc, orders[i], Concat(orders[i + 1..]));
  }

  /** One child's branch, then the later children's, appended in two steps. */
  lemma {:induction false} EdgesStep(acc: seq<Edge>, branches: seq<seq<Edge>>, i: nat)
    requires i < |branches|
    ensures acc + branches[i] + Concat(branches[i + 1..]) == acc + Concat(branches[i..])
  {
    ConcatSplit(branches, i);
  }

  // ---------------------------------------------------------------------------
  // Properties of the drawn graph

  /** Every edge joins two topics of the tree. */
  lemma {:induction false} EdgeEndsAreTopics(n: MindMapNode)
    ensures forall e :: e in EdgesOf(n) ==> e.source in PreOrder(n) && e.target in PreOrder(n)
    decreases n
  {
    match n.children
    case Absent =>
    case Present(cs) =>
      var orders := ChildOrders(n);
      var branches := ChildBranches(n);
      assert PreOrder(n) == [n.topic] + Concat(orders);
      forall e | e in EdgesOf(n) ensures e.source in PreOrder(n) && e.target in PreOrder(n) {
        ConcatMember(branches, e);
        var i :| 0 <= i < |branches| && e in branches[i];
        ConcatMember(orders, cs[i].topic);
        assert cs[i].topic == orders[i][0];
        if e in ChildEdge(n.topic, cs[i]) {
          assert e == Edge(n.topic, cs[i].topic);
        } else {
          assert e in EdgesOf(cs[i]);
          EdgeEndsAreTopics(cs[i]);
          ConcatMember(orders, e.source);
          ConcatMember(orders, e.target);
        }
      }
  }

  /** With no empty topic, there is exactly one edge per non-root occurrence. */
  lemma {:induction false} EdgeCount(n: MindMapNode)
    requires NonEmptyTopics(n)
    ensures |EdgesOf(n)| == |PreOrder(n)| - 1
    decreases n
  {
    match n.children
    case Absent =>
    case Present(cs) =>
      var orders := ChildOrders(n);
      var branches := ChildBranches(n);
      forall i | 0 <= i < |cs| ensures |branches[i]| == |orders[i]| {
        EdgeCount(cs[i]);
      }
      ConcatSameLengths(branches, orders);
      assert PreOrder(n) == [n.topic] + Concat(orders);
  }

  /** The drawn nodes are the tree's topics, each once, in order of first
      pre-order occurrence; every edge joins two drawn nodes; the root has no
      edge of its own. */
  lemma BuildGraphSpec(t: MindMapTool)
    ensures BuildGraph(t).nodes == Dedup([], PreOrder(t.mindmap))
    ensures BuildGraph(t).edges == EdgesOf(t.mindmap)
    ensures NoDup(BuildGraph(t).nodes)
    ensures forall x :: x in BuildGraph(t).nodes <==> x in PreOrder(t.mindmap)
    ensures forall e :: e in BuildGraph(t).edges ==> e.source in BuildGraph(t).nodes && e.target in BuildGraph(t).nodes
  {
    TraverseSpec(t.mindmap, None, Graph([], []));
    DedupProps([], PreOrder(t.mindmap));
    EdgeEndsAreTopics(t.mindmap);
  }

  /** A node without children, or with an empty list, contributes only its topic and its in-edge. */
  lemma {:induction false} LeafContributesItself(topic: string, kids: Children, parent: Option<string>, g: Graph)
    requires kids == Absent || kids == Present([])
    ensures Traverse(MindMapNode(topic, kids), parent, g)
      == Graph(if topic in g.nodes then g.nodes else g.nodes + [topic], g.edges + InEdge(parent, topic))
  {
  }

  /** A topic repeated under a non-empty parent yields a repeated edge but one node. */
  lemma RepeatedTopicRepeatsEdge()
    ensures BuildGraph(MindMapTool(MindMapNode("r", Present([MindMapNode("a", Absent), MindMapNode("a", Absent)]))))
      == Graph(["r", "a"], [Edge("r", "a"), Edge("r", "a")])
  {
  }
}

=== FILE: json.dfy ===
/** Decoded JSON values, as Python's `json.loads` produces them.

    Objects keep their members in source order, duplicates included; a
    lookup sees the LAST member with the key, because `json.loads` keeps the
    last duplicate when it builds the dict. Numbers are integers only. */
module Json {
  import opened Base

  datatype Json =
    | JNull
    | JBool(b: bool)
    | JNum(n: int)
    | JStr(s: string)
    | JArr(items: seq<Json>)
    | JObj(members: seq<(string, Json)>)

  /** Index of the last member named `key`, as a Python dict lookup sees it. */
  function LastIndexOf(members: seq<(string, Json)>, key: string): (r: Option<nat>)
    ensures r.Some? ==> r.value < |members| && members[r.value].0 == key
    ensures r.Some? ==> forall k :: r.value < k < |members| ==> members[k].0 != key
    ensures r.None? <==> forall k :: 0 <= k < |members| ==> members[k].0 != key
  {
    if |members| == 0 then None
    else if members[|members| - 1].0 == key then Some(|members| - 1)
    else LastIndexOf(members[..|members| - 1], key)
  }

  /** `d.get(key)` on an object: the value of the last member named `key`. */
  function Get(members: seq<(string, Json)>, key: string): (r: Option<Json>)
    ensures r.None? <==> forall k :: 0 <= k < |members| ==> members[k].0 != key
    ensures r.Some? ==> exists k :: 0 <= k < |members| && members[k] == (key, r.value)
                                     && forall m :: k < m < |members| ==> members[m].0 != key
  {
    match LastIndexOf(members, key)
    case None => None
    case Some(k) => Some(members[k].1)
  }

  /** Python truthiness of a decoded value: every value except `None`,
      `False`, `0`, `""`, `[]` and `{}` is truthy. */
  predicate Truthy(j: Json) {
    match j
    case JNull => false
    case JBool(b) => b
    case JNum(n) => n != 0
    case JStr(s) => |s| > 0
    case JArr(items) => |items| > 0
    case JObj(members) => |members| > 0
  }

  /** The falsy values are exactly the six empty or zero ones. */
  lemma FalsyValues(j: Json)
    ensures !Truthy(j) <==> j in {JNull, JBool(false), JNum(0), JStr(""), JArr([]), JObj([])}
  {
    match j
    case JStr(s) => assert |s| == 0 ==> s == "";
    case JArr(items) => assert |items| == 0 ==> items == [];
    case JObj(members) => assert |members| == 0 ==> members == [];
    case _ =>
  }
}

=== FILE: mindmap.dfy ===
/** The mind-map schema: a topic tree whose nodes carry an optional child list,
    wrapped in the single-field tool payload the language model must return.

    `ValidateTool` is what constructing the tool model from the tool-call
    arguments accepts; `DumpTool` is the JSON document that serializing the
    validated model produces and the stage stores. */
module MindMap {
  import opened Base
  import opened Json

  /** A node: a required topic and a child list that may be absent (`None`). */
  datatype MindMapNode = MindMapNode(topic: string, children: Children)

  /** The optional child list: `Absent` is Python's `None`, `Present([])` an empty list. */
  datatype Children = Absent | Present(nodes: seq<MindMapNode>)

  /** The tool payload: exactly one root node. */
  datatype MindMapTool = MindMapTool(mindmap: MindMapNode)

  /** One tool call of a model response. */
  datatype ToolCall = ToolCall(name: string, args: Json)

  /** The part of a model response the stage reads. */
  datatype ModelResponse = ModelResponse(toolCalls: seq<ToolCall>)

  predicate AllOk<T>(rs: seq<Result<T>>) {
    forall i :: 0 <= i < |rs| ==> rs[i].Ok?
  }

  function Values<T>(rs: seq<Result<T>>): (vs: seq<T>)
    requires AllOk(rs)
    ensures |vs| == |rs| && forall i :: 0 <= i < |rs| ==> rs[i] == Ok(vs[i])
  {
    seq(|rs|, i requires 0 <= i < |rs| => rs[i].value)
  }

  /** Validation of a node: an object whose `topic` is a string and whose
      `children`, when present and not null, is an array of valid nodes. */
  function ValidateNode(j: Json): (r: Result<MindMapNode>)
    ensures r.Raised? ==> r.fault == ValidationError
    ensures r.Ok? ==> j.JObj? && Get(j.members, "topic") == Some(JStr(r.value.topic))
    ensures r.Ok? && r.value.children.Present? ==>
      j.JObj? && Get(j.members, "children").Some? && Get(j.members, "children").value.JArr?
      && |Get(j.members, "children").value.items| == |r.value.children.nodes|
    ensures r.Ok? && r.value.children.Absent? ==> j.JObj? && Get(j.members, "children") in {None, Some(JNull)}
    ensures j.JObj? && Get(j.members, "topic").Some? && Get(j.members, "topic").value.JStr?
            && Get(j.members, "children") in {None, Some(JNull)} ==>
      r == Ok(MindMapNode(Get(j.members, "topic").value.s, Absent))
    ensures r.Ok? && r.value.children.Present? ==>
      var items := Get(j.members, "children").value.items;
      forall i :: 0 <= i < |items| ==> ValidateNode(items[i]) == Ok(r.value.children.nodes[i])
    ensures j.JObj? && Get(j.members, "topic").Some? && Get(j.members, "topic").value.JStr?
            && Get(j.members, "children").Some? && Get(j.members, "children").value.JArr?
            && (forall i :: 0 <= i < |Get(j.members, "children").value.items| ==>
                  ValidateNode(Get(j.members, "children").value.items[i]).Ok?) ==>
      r.Ok? && r.value.topic == Get(j.members, "topic").value.s && r.value.children.Present?
    decreases j
  {
    if !j.JObj? then Raised(ValidationError)
    else
      var members := j.members;
      var t := LastIndexOf(members, "topic");
      if t.None? || !members[t.value].1.JStr? then Raised(ValidationError)
      else
        var topic := members[t.value].1.s;
        var c := LastIndexOf(members, "children");
        if c.None? || members[c.value].1.JNull? then Ok(MindMapNode(topic, Absent))
        else if !members[c.value].1.JArr? then Raised(ValidationError)
        else
          var items := members[c.value].1.items;
          var rs := seq(|items|, i requires 0 <= i < |items| => ValidateNode(items[i]));
          if AllOk(rs) then Ok(MindMapNode(topic, Present(Values(rs)))) else Raised(ValidationError)
  }

  /** Constructing the tool model from keyword arguments: the arguments must
      be a mapping (`**`), and its `mindmap` member must validate as a node.
      Other members are ignored. */
  function ValidateTool(args: Json): (r: Result<MindMapTool>)
    ensures !args.JObj? <==> r == Raised(TypeError)
    ensures args.JObj? && Get(args.members, "mindmap").None? ==> r == Raised(ValidationError)
    ensures r.Ok? ==> args.JObj? && Get(args.members, "mindmap").Some? && ValidateNode(Get(args.members, "mindmap").value) == Ok(r.value.mindmap)
    ensures args.JObj? && Get(args.members, "mindmap").Some? ==>
      (r.Ok? <==> ValidateNode(Get(args.members, "mindmap").value).Ok?)
    ensures r.Raised? ==> r.fault in {TypeError, ValidationError}
  {
    if !args.JObj? then Raised(TypeError)
    else
      var v := Get(args.members, "mindmap");
      if v.None? then Raised(ValidationError)
      else
        var node := ValidateNode(v.value);
        if node.Ok? then Ok(MindMapTool(node.value)) else Raised(node.fault)
  }

  /** `tool_calls[0]["args"]` validated as the tool payload. */
  function ParseResponse(resp: ModelResponse): Result<MindMapTool>
  {
    if |resp.toolCalls| == 0 then Raised(IndexError) else ValidateTool(resp.toolCalls[0].args)
  }

  /** The JSON form of a node, members in declaration order. */
  function DumpNode(n: MindMapNode): Json
    decreases n
  {
    JObj([("topic", JStr(n.topic)),
          ("children",
            match n.children
            case Absent => JNull
            case Present(cs) => JArr(seq(|cs|, i requires 0 <= i < |cs| => DumpNode(cs[i]))))])
  }

  /** The JSON form of the tool payload that the stage stores. */
  function DumpTool(t: MindMapTool): (r: Json)
    ensures r.JObj? && Get(r.members, "mindmap") == Some(DumpNode(t.mindmap))
    ensures Truthy(r)
  {
    JObj([("mindmap", DumpNode(t.mindmap))])
  }

  /** Validating a dumped node gives the node back. */
  lemma {:induction false} NodeRoundTrip(n: MindMapNode)
    ensures ValidateNode(DumpNode(n)) == Ok(n)
    decreases n
  {
    var members := DumpNode(n).members;
    assert LastIndexOf(members, "topic") == Some(0);
    assert LastIndexOf(members, "children") == Some(1);
    match n.children
    case Absent =>
    case Present(cs) =>
      var items := seq(|cs|, i requires 0 <= i < |cs| => DumpNode(cs[i]));
      forall i | 0 <= i < |cs| ensures ValidateNode(items[i]) == Ok(cs[i]) {
        NodeRoundTrip(cs[i]);
      }
      var rs := seq(|items|, i requires 0 <= i < |items| => ValidateNode(items[i]));
      assert AllOk(rs);
      assert Values(rs) == cs;
      assert members[1].1 == JArr(items);
  }

  /** What the stage stores validates back to exactly the tree the model returned. */
  lemma ToolRoundTrip(t: MindMapTool)
    ensures ValidateTool(DumpTool(t)) == Ok(t)
  {
    NodeRoundTrip(t.mindmap);
  }

  /** A response whose first tool call carries a stored tree parses back to
      that tree, whatever the call's name and whatever calls follow; a
      response without tool calls raises `IndexError`. */
  lemma ResponseRoundTrip(t: MindMapTool, name: string, rest: seq<ToolCall>)
    ensures ParseResponse(ModelResponse([ToolCall(name, DumpTool(t))] + rest)) == Ok(t)
    ensures ParseResponse(ModelResponse([])) == Raised(IndexError)
  {
    ToolRoundTrip(t);
  }

  /** A child that fails validation makes the whole payload fail. */
  lemma BadChildRejects(topic: string, items: seq<Json>, k: nat)
    requires k < |items| && ValidateNode(items[k]).Raised?
    ensures ValidateNode(JObj([("topic", JStr(topic)), ("children", JArr(items))])) == Raised(ValidationError)
  {
    var rs := seq(|items|, i requires 0 <= i < |items| => ValidateNode(items[i]));
    assert rs[k].Raised?;
  }
}

=== FILE: paths.dfy ===
/** POSIX path handling as `os.path.join` and `os.path.basename` do it. */
module Paths {

  /** `posixpath.join(a, b)`: an absolute `b` discards `a`; otherwise a single
      '/' is put between them unless `a` is empty or already ends in '/'. */
  function PathJoin(a: string, b: string): (r: string)
    ensures |b| > 0 && b[0] == '/' ==> r == b
    ensures !(|b| > 0 && b[0] == '/') ==> |r| >= |a| + |b| && r[..|a|] == a && r[|r| - |b|..] == b
    ensures !(|b| > 0 && b[0] == '/') ==>
      (|r| == |a| + |b| <==> |a| == 0 || a[|a| - 1] == '/') && |r| <= |a| + |b| + 1
    ensures |r| == |a| + |b| + 1 ==> r[|a|] == '/'
  {
    if |b| > 0 && b[0] == '/' then b
    else if |a| == 0 || a[|a| - 1] == '/' then a + b
    else a + "/" + b
  }

  /** `os.path.join(base, group, file)`, which folds the two-argument join left to right. */
  function DocumentPath(base: string, group: string, file: string): (r: string)
    ensures |file| > 0 && file[0] == '/' ==> r == file
    ensures |r| >= |file| && r[|r| - |file|..] == file
  {
    PathJoin(PathJoin(base, group), file)
  }

  /** For a base without a trailing '/' and relative names, the document path is base/group/file. */
  lemma DocumentPathShape(base: string, group: string, file: string)
    requires |base| > 0 && base[|base| - 1] != '/'
    requires |group| > 0 && group[0] != '/' && group[|group| - 1] != '/'
    requires |file| > 0 && file[0] != '/'
    ensures DocumentPath(base, group, file) == base + "/" + group + "/" + file
  {
    var d := base + "/" + group;
    assert PathJoin(base, group) == d;
    assert d[|d| - 1] == group[|group| - 1];
  }

  /** `posixpath.basename(p)`: everything after the last '/'. */
  function Basename(p: string): (r: string)
    ensures '/' !in r
    ensures |r| <= |p|
  {
    if |p| == 0 || p[|p| - 1] == '/' then ""
    else Basename(p[..|p| - 1]) + [p[|p| - 1]]
  }

  /** A slash-free name put after a directory prefix is recovered by basename. */
  lemma {:induction false} BasenameAfterSlash(dir: string, name: string)
    requires '/' !in name
    requires |dir| == 0 || dir[|dir| - 1] == '/'
    ensures Basename(dir + name) == name
  {
    var p := dir + name;
    if |name| == 0 {
      assert p == dir;
    } else {
      var last := name[|name| - 1];
      var init := name[..|name| - 1];
      assert last in name;
      assert p[|p| - 1] == last;
      assert p[..|p| - 1] == dir + init;
      BasenameAfterSlash(dir, init);
      assert Basename(p) == Basename(dir + init) + [last];
      assert init + [last] == name;
    }
  }

  /** The file name the summary stage records is the envelope's own file
      name whenever that name holds no '/'. */
  lemma BasenameOfDocumentPath(base: string, group: string, file: string)
    requires '/' !in file
    ensures Basename(DocumentPath(base, group, file)) == file
  {
    var d := PathJoin(base, group);
    assert !(|file| > 0 && file[0] == '/') by {
      if |file| > 0 { assert file[0] in file; }
    }
    if |d| == 0 || d[|d| - 1] == '/' {
      BasenameAfterSlash(d, file);
    } else {
      assert d + "/" + file == (d + "/") + file;
      BasenameAfterSlash(d + "/", file);
    }
  }

  /** Basename only looks past the last '/': a text holding one keeps its basename under any prefix. */
  lemma {:induction false} BasenameOfSlashed(x: string, y: string)
    requires '/' in y
    ensures Basename(x + y) == Basename(y)
  {
    var p := x + y;
    if y[|y| - 1] != '/' {
      var init := y[..|y| - 1];
      assert y == init + [y[|y| - 1]];
      assert '/' in init;
      assert p[..|p| - 1] == x + init;
      BasenameOfSlashed(x, init);
    }
  }

  /** A file name holding a '/' is cut to its own last component, wherever the job's path puts it. */
  lemma {:induction false} NestedFileNameIsCut(base: string, group: string, file: string)
    requires '/' in file
    ensures Basename(DocumentPath(base, group, file)) == Basename(file)
  {
    var r := DocumentPath(base, group, file);
    if !(|file| > 0 && file[0] == '/') {
      assert r == r[..|r| - |file|] + file;
      BasenameOfSlashed(r[..|r| - |file|], file);
    }
  }

  /** For example, "sub/a.txt" is recorded as "a.txt". */
  lemma NestedFileNameExample()
    ensures Basename(DocumentPath("/data", "g", "sub/a.txt")) == "a.txt"
  {
    NestedFileNameIsCut("/data", "g", "sub/a.txt");
    assert "sub/a.txt" == "sub/" + "a.txt";
    BasenameAfterSlash("sub/", "a.txt");
  }
}

=== FILE: stages.dfy ===
/** The three processing stages a job runs: indexing, summary and mind map.

    The loader, the text splitter, the vector store and the language model
    are oracles: each call's outcome is a parameter. The indexing and summary
    stages reload the document themselves, so each gets its own loader outcome. */
module Stages {
  import opened Base
  import opened Json
  import opened Text
  import opened MindMap
  import opened Store
  import Paths

  /** The splitter's configuration: window size, overlap and preferred separators. */
  const ChunkSize: nat := 1000
  const ChunkOverlap: nat := 200
  const SplitSeparators: seq<string> := ["\n\n", "\n"]

  // ---------------------------------------------------------------------------
  // Indexing

  /** `process_for_rag`: load, join, split, then upsert the chunks into the
      collection named after the group. No failure is caught here. */
  function ProcessForRag(st: Store, filePath: string, group: string, load: string -> Result<seq<string>>,
                         split: string -> seq<string>, indexOk: bool): (out: (Result<()>, Store))
    ensures load(filePath).Raised? ==> out == (Raised(load(filePath).fault), st)
    ensures load(filePath).Ok? && !indexOk ==> out == (Raised(VectorStoreError), st)
    ensures out.0.Ok? <==> load(filePath).Ok? && indexOk
    ensures out.0.Ok? ==>
      && group in out.1.collections
      && out.1.collections[group]
         == (if group in st.collections then st.collections[group] else []) + split(FullText(load(filePath).value))
      && (forall c :: c in st.collections && c != group ==> c in out.1.collections && out.1.collections[c] == st.collections[c])
      && (forall c :: c in out.1.collections ==> c in st.collections || c == group)
    ensures out.1.dirs == st.dirs && out.1.groups == st.groups && out.1.summaries == st.summaries
      && out.1.mindmaps == st.mindmaps && out.1.nextGroupId == st.nextGroupId
  {
    var elements := load(filePath);
    if elements.Raised? then (Raised(elements.fault), st)
    else
      var chunks := split(FullText(elements.value));
      if !indexOk then (Raised(VectorStoreError), st)
      else
        var existing := if group in st.collections then st.collections[group] else [];
        (Ok(()), st.(collections := st.collections[group := existing + chunks]))
  }

  // ---------------------------------------------------------------------------
  // Summary

  /** Whether the statements inside the summary stage's `try` all succeed: the group exists and no statement fails. */
  predicate SummaryWrites(st: Store, group: string, fails: set<Step>) {
    && FindGroup(st.groups, group).Some?
    && SelectGroup !in fails && SelectExisting !in fails && WriteRows !in fails && CommitRows !in fails
  }

  /** `process_for_summary`. Loading and the model call sit outside the
      `try` and raise; so does opening the cursor. Inside the `try`, a
      missing group (indexing the `None` row) or any failing statement rolls
      back and returns normally. The lookup of an earlier summary for the
      same file does not influence the insert. */
  function ProcessForSummary(st: Store, filePath: string, group: string, load: string -> Result<seq<string>>,
                             summarize: string -> Result<string>, fails: set<Step>): (out: (Result<()>, Store))
    ensures load(filePath).Raised? ==> out == (Raised(load(filePath).fault), st)
    ensures load(filePath).Ok? && summarize(FullText(load(filePath).value)).Raised? ==>
      out == (Raised(summarize(FullText(load(filePath).value)).fault), st)
    ensures out.0.Raised? <==>
      load(filePath).Raised? || summarize(FullText(load(filePath).value)).Raised? || OpenCursor in fails
    ensures out.0.Raised? ==> out.1 == st
    ensures out.0.Ok? && !SummaryWrites(st, group, fails) ==> out.1 == st
    ensures out.0.Ok? && SummaryWrites(st, group, fails) ==>
      out.1 == st.(summaries := st.summaries + [SummaryRow(FindGroup(st.groups, group).value.id,
                                                           Paths.Basename(filePath),
                                                           Strip(summarize(FullText(load(filePath).value)).value))])
  {
    var elements := load(filePath);
    if elements.Raised? then (Raised(elements.fault), st)
    else
      var fullText := FullText(elements.value);
      var reply := summarize(fullText);
      if reply.Raised? then (Raised(reply.fault), st)
      else
        var summaryText := Strip(reply.value);
        if OpenCursor in fails then (Raised(DbError), st)
        else
          var fileName := Paths.Basename(filePath);
          var g := FindGroup(st.groups, group);
          if SelectGroup in fails || g.None? || SelectExisting in fails || WriteRows in fails || CommitRows in fails
          then (Ok(()), st)
          else (Ok(()), st.(summaries := st.summaries + [SummaryRow(g.value.id, fileName, summaryText)]))
  }

  // ---------------------------------------------------------------------------
  // Mind map

  /** What the stage asks the model for: a fresh tree, or a merge of the stored one with new text. */
  datatype MindMapRequest = Create(text: string) | Merge(existing: Json, text: string)

  /** How a mind-map run ended when nothing escaped it. */
  datatype MindMapOutcome = GroupMissing | Created(tool: MindMapTool) | Updated(tool: MindMapTool) | Swallowed(fault: Fault)

  /** `UPDATE mindmaps SET mindmap_data = %s WHERE group_id = %s`. */
  function ReplaceData(rows: seq<MindMapRow>, groupId: int, data: Json): seq<MindMapRow>
  {
    seq(|rows|, k requires 0 <= k < |rows| =>
      if rows[k].groupId == groupId then MindMapRow(groupId, Some(data)) else rows[k])
  }

  /** The stored value the stage sees for a group: the first row's value, `None` without a row. */
  function ExistingCell(st: Store, groupId: int): (r: Option<Json>)
    ensures r.Some? ==> exists k :: 0 <= k < |st.mindmaps| && st.mindmaps[k] == MindMapRow(groupId, r)
    ensures (forall k :: 0 <= k < |st.mindmaps| ==> st.mindmaps[k].groupId != groupId) ==> r.None?
    ensures forall k :: 0 <= k < |st.mindmaps| && st.mindmaps[k].groupId == groupId
                        && (forall m :: 0 <= m < k ==> st.mindmaps[m].groupId != groupId)
                        ==> r == st.mindmaps[k].data
  {
    match FirstMindMap(st.mindmaps, groupId)
    case None => None
    case Some(cell) => cell
  }

  /** The request the stage makes for a group: a merge exactly when the stored value is truthy. */
  function RequestFor(st: Store, groupId: int, text: string): MindMapRequest
  {
    var cell := ExistingCell(st, groupId);
    if CellTruthy(cell) then Merge(cell.value, text) else Create(text)
  }

  /** The `UPDATE` as the lookup sees it: the group's first value becomes the
      new data when the group had a row, and every other group reads as before. */
  lemma {:induction false} ReplaceDataLookup(rows: seq<MindMapRow>, groupId: int, data: Json, id: int)
    ensures FirstMindMap(ReplaceData(rows, groupId, data), id)
      == if id != groupId then FirstMindMap(rows, id)
         else if FirstMindMap(rows, id).Some? then Some(Some(data)) else None
  {
    if |rows| > 0 {
      assert ReplaceData(rows, groupId, data)[1..] == ReplaceData(rows[1..], groupId, data);
      ReplaceDataLookup(rows[1..], groupId, data, id);
    }
  }

  /** The request for each stored state: no row, a NULL row or a falsy value
      asks for a new tree; a truthy value asks for a merge with it. */
  lemma {:induction false} RequestForCases(st: Store, groupId: int, text: string, j: Json)
    ensures FirstMindMap(st.mindmaps, groupId) in {None, Some(None)} ==> RequestFor(st, groupId, text) == Create(text)
    ensures FirstMindMap(st.mindmaps, groupId) == Some(Some(j)) && j in {JNull, JBool(false), JNum(0), JStr(""), JArr([]), JObj([])}
      ==> RequestFor(st, groupId, text) == Create(text)
    ensures FirstMindMap(st.mindmaps, groupId) == Some(Some(j)) && j !in {JNull, JBool(false), JNum(0), JStr(""), JArr([]), JObj([])}
      ==> RequestFor(st, groupId, text) == Merge(j, text)
  {
    FalsyValues(j);
  }

  /** `process_for_mindmap`. Opening the cursor sits outside the `try` and
      raises. A missing group returns with no write. Otherwise the stage asks
      for a merge when the stored value is truthy and for a new tree
      otherwise, validates the tool arguments, and then replaces every row of
      the group (truthy) or inserts one (not truthy). Every failure inside
      the `try` rolls back and is swallowed. */
  function ProcessForMindmap(st: Store, group: string, text: string,
                             synthesize: MindMapRequest -> Result<ModelResponse>, fails: set<Step>)
    : (out: (Result<MindMapOutcome>, Store))
    ensures out.0.Raised? <==> OpenCursor in fails
    ensures out.0.Raised? ==> out.0.fault == DbError
    ensures out.0.Ok? && FindGroup(st.groups, group).None? && SelectGroup !in fails ==> out.0.value == GroupMissing
    ensures out.0.Ok? && out.0.value.GroupMissing? ==> FindGroup(st.groups, group).None?
    ensures out.0.Raised? || out.0.value.GroupMissing? || out.0.value.Swallowed? ==> out.1 == st
    ensures out.1 == st.(mindmaps := out.1.mindmaps)
    ensures out.0.Ok? && out.0.value.Created? ==>
      FindGroup(st.groups, group).Some? && (
        var g := FindGroup(st.groups, group).value;
        && !CellTruthy(ExistingCell(st, g.id))
        && synthesize(Create(text)).Ok?
        && ParseResponse(synthesize(Create(text)).value) == Ok(out.0.value.tool)
        && out.1 == st.(mindmaps := st.mindmaps + [MindMapRow(g.id, Some(DumpTool(out.0.value.tool)))]))
    ensures out.0.Ok? && out.0.value.Updated? ==>
      FindGroup(st.groups, group).Some? && (
        var g := FindGroup(st.groups, group).value;
        var cell := ExistingCell(st, g.id);
        && CellTruthy(cell)
        && synthesize(Merge(cell.value, text)).Ok?
        && ParseResponse(synthesize(Merge(cell.value, text)).value) == Ok(out.0.value.tool)
        && out.1 == st.(mindmaps := ReplaceData(st.mindmaps, g.id, DumpTool(out.0.value.tool))))
    ensures out.0.Ok? && !out.0.value.Swallowed? ==> SelectGroup !in fails
    ensures out.0.Ok? && (out.0.value.Created? || out.0.value.Updated?) ==>
      SelectExisting !in fails && WriteRows !in fails && CommitRows !in fails
    ensures OpenCursor !in fails && SelectGroup in fails ==> out == (Ok(Swallowed(DbError)), st)
    ensures OpenCursor !in fails && FindGroup(st.groups, group).Some? && SelectExisting in fails ==>
      out == (Ok(Swallowed(DbError)), st)
    ensures OpenCursor !in fails && SelectGroup !in fails && FindGroup(st.groups, group).Some?
            && (WriteRows in fails || CommitRows in fails) ==>
      out.0.Ok? && out.0.value.Swallowed? && out.1 == st
    ensures OpenCursor !in fails && SelectGroup !in fails && SelectExisting !in fails
            && WriteRows !in fails && CommitRows !in fails && FindGroup(st.groups, group).Some? ==>
      var reply := synthesize(RequestFor(st, FindGroup(st.groups, group).value.id, text));
      reply.Ok? && ParseResponse(reply.value).Ok? ==>
        out.0.Ok? && (out.0.value.Created? || out.0.value.Updated?) && out.0.value.tool == ParseResponse(reply.value).value
  {
    if OpenCursor in fails then (Raised(DbError), st)
    else if SelectGroup in fails then (Ok(Swallowed(DbError)), st)
    else
      match FindGroup(st.groups, group)
      case None => (Ok(GroupMissing), st)
      case Some(g) =>
        if SelectExisting in fails then (Ok(Swallowed(DbError)), st)
        else
          var request := RequestFor(st, g.id, text);
          var reply := synthesize(request);
          if reply.Raised? then (Ok(Swallowed(reply.fault)), st)
          else
            var tool := ParseResponse(reply.value);
            if tool.Raised? then (Ok(Swallowed(tool.fault)), st)
            else if WriteRows in fails || CommitRows in fails then (Ok(Swallowed(DbError)), st)
            else
              var data := DumpTool(tool.value);
              if request.Merge? then (Ok(Updated(tool.value)), st.(mindmaps := ReplaceData(st.mindmaps, g.id, data)))
              else (Ok(Created(tool.value)), st.(mindmaps := st.mindmaps + [MindMapRow(g.id, Some(data))]))
  }

  // ---------------------------------------------------------------------------
  // Properties of the stages

  /** The summary insert is the same whatever summaries are already stored:
      running the stage on two stores that differ only in their summaries
      appends the same row to each. */
  lemma SummaryIgnoresExistingRows(st: Store, other: seq<SummaryRow>, filePath: string, group: string,
                                   load: string -> Result<seq<string>>, summarize: string -> Result<string>, fails: set<Step>)
    ensures var a := ProcessForSummary(st, filePath, group, load, summarize, fails);
            var b := ProcessForSummary(st.(summaries := other), filePath, group, load, summarize, fails);
            a.0 == b.0
            && (a.1 == st <==> b.1 == st.(summaries := other))
            && (a.1 != st ==> a.1.summaries[|st.summaries|..] == b.1.summaries[|other|..])
  {
  }

  /** Two successful summary runs for the same file leave two rows, in run
      order, both visible to `get_summaries`: the insert neither deduplicates
      nor overwrites, whatever the model answers each time. */
  lemma {:induction false} SummaryTwiceKeepsBoth(st: Store, filePath: string, group: string, load: string -> Result<seq<string>>,
                              first: string -> Result<string>, second: string -> Result<string>)
    requires load(filePath).Ok?
    requires first(FullText(load(filePath).value)).Ok? && second(FullText(load(filePath).value)).Ok?
    requires FindGroup(st.groups, group).Some?
    ensures var once := ProcessForSummary(st, filePath, group, load, first, {}).1;
            var twice := ProcessForSummary(once, filePath, group, load, second, {}).1;
            var text := FullText(load(filePath).value);
            GetSummaries(twice, group) == GetSummaries(st, group)
              + [(Paths.Basename(filePath), Strip(first(text).value)), (Paths.Basename(filePath), Strip(second(text).value))]
  {
    var once := ProcessForSummary(st, filePath, group, load, first, {}).1;
    SummaryRunAppends(st, filePath, group, load, first);
    SummaryRunAppends(once, filePath, group, load, second);
  }

  /** One successful summary run leaves the groups as they were and adds its
      pair at the end of the group's `get_summaries` list. */
  lemma {:induction false} SummaryRunAppends(st: Store, filePath: string, group: string, load: string -> Result<seq<string>>,
                          summarize: string -> Result<string>)
    requires load(filePath).Ok? && summarize(FullText(load(filePath).value)).Ok?
    requires FindGroup(st.groups, group).Some?
    ensures var out := ProcessForSummary(st, filePath, group, load, summarize, {}).1;
            && out.groups == st.groups
            && GetSummaries(out, group)
               == GetSummaries(st, group) + [(Paths.Basename(filePath), Strip(summarize(FullText(load(filePath).value)).value))]
  {
    var row := SummaryRow(FindGroup(st.groups, group).value.id, Paths.Basename(filePath),
                          Strip(summarize(FullText(load(filePath).value)).value));
    assert ProcessForSummary(st, filePath, group, load, summarize, {}).1.summaries == st.summaries + [row];
    SummariesOfAppend(st.summaries, row);
  }

  /** First ingestion into a group with no row: one row is inserted, holding the dumped tree, and reading the group's mind map gives it back. */
  lemma {:induction false} FirstMindMapIsInserted(st: Store, group: string, text: string,
                               synthesize: MindMapRequest -> Result<ModelResponse>, fails: set<Step>)
    requires FindGroup(st.groups, group).Some?
    requires forall k :: 0 <= k < |st.mindmaps| ==> st.mindmaps[k].groupId != FindGroup(st.groups, group).value.id
    requires ProcessForMindmap(st, group, text, synthesize, fails).0.Ok?
    requires !ProcessForMindmap(st, group, text, synthesize, fails).0.value.Swallowed?
    ensures var out := ProcessForMindmap(st, group, text, synthesize, fails);
            && out.0.value.Created?
            && GetMindmap(out.1, group) == Some(Some(DumpTool(out.0.value.tool)))
            && ValidateTool(GetMindmap(out.1, group).value.value) == Ok(out.0.value.tool)
  {
    var out := ProcessForMindmap(st, group, text, synthesize, fails);
    var g := FindGroup(st.groups, group).value;
    assert ExistingCell(st, g.id) == None;
    assert out.0.value.Created?;
    var row := MindMapRow(g.id, Some(DumpTool(out.0.value.tool)));
    FirstMindMapAfterNew(st.mindmaps, row);
    assert out.1.groups == st.groups;
    ToolRoundTrip(out.0.value.tool);
  }

  /** Once a group's first row holds a stored tree, the next run asks for a
      merge with that tree and replaces every row of the group with the result. */
  lemma {:induction false} StoredMapIsMerged(st: Store, group: string, text: string,
                          synthesize: MindMapRequest -> Result<ModelResponse>, fails: set<Step>, t: MindMapTool)
    requires FindGroup(st.groups, group).Some?
    requires ExistingCell(st, FindGroup(st.groups, group).value.id) == Some(DumpTool(t))
    requires ProcessForMindmap(st, group, text, synthesize, fails).0.Ok?
    requires !ProcessForMindmap(st, group, text, synthesize, fails).0.value.Swallowed?
    ensures var out := ProcessForMindmap(st, group, text, synthesize, fails);
            && out.0.value.Updated?
            && ParseResponse(synthesize(Merge(DumpTool(t), text)).value) == Ok(out.0.value.tool)
            && forall k :: 0 <= k < |out.1.mindmaps| && out.1.mindmaps[k].groupId == FindGroup(st.groups, group).value.id
                 ==> out.1.mindmaps[k].data == Some(DumpTool(out.0.value.tool))
  {
    var g := FindGroup(st.groups, group).value;
    var out := ProcessForMindmap(st, group, text, synthesize, fails);
    assert RequestFor(st, g.id, text) == Merge(DumpTool(t), text);
    assert out.0.value.Updated?;
    var rows := ReplaceData(st.mindmaps, g.id, DumpTool(out.0.value.tool));
    assert out.1.mindmaps == rows;
    ReplacedRowsHoldData(st.mindmaps, g.id, DumpTool(out.0.value.tool));
  }

  /** After the `UPDATE`, every row of the group holds the new data. */
  lemma ReplacedRowsHoldData(rows: seq<MindMapRow>, groupId: int, data: Json)
    ensures forall k :: 0 <= k < |ReplaceData(rows, groupId, data)| && ReplaceData(rows, groupId, data)[k].groupId == groupId
              ==> ReplaceData(rows, groupId, data)[k].data == Some(data)
  {
  }

  /** A NULL first row is not truthy, so the stage inserts a second row; the
      first row still answers the lookup, so the new tree stays hidden. */
  lemma {:induction false} NullRowShadowsNewTree(st: Store, group: string, text: string,
                              synthesize: MindMapRequest -> Result<ModelResponse>)
    requires FindGroup(st.groups, group).Some?
    requires FirstMindMap(st.mindmaps, FindGroup(st.groups, group).value.id) == Some(None)
    requires synthesize(Create(text)).Ok? && ParseResponse(synthesize(Create(text)).value).Ok?
    ensures var out := ProcessForMindmap(st, group, text, synthesize, {});
            && out.0.value.Created?
            && |out.1.mindmaps| == |st.mindmaps| + 1
            && GetMindmap(out.1, group) == Some(None)
  {
    var g := FindGroup(st.groups, group).value;
    var out := ProcessForMindmap(st, group, text, synthesize, {});
    var k :| 0 <= k < |st.mindmaps| && st.mindmaps[k] == MindMapRow(g.id, None)
      && forall m :: 0 <= m < k ==> st.mindmaps[m].groupId != g.id;
    FirstMindMapPrefix(st.mindmaps, out.1.mindmaps, g.id, k);
  }

  /** Rows after the first match do not change what the lookup finds. */
  lemma {:induction false} FirstMindMapPrefix(rows: seq<MindMapRow>, rows': seq<MindMapRow>, groupId: int, k: nat)
    requires k < |rows| && |rows| <= |rows'| && rows'[..|rows|] == rows
    requires rows[k].groupId == groupId && forall m :: 0 <= m < k ==> rows[m].groupId != groupId
    ensures FirstMindMap(rows', groupId) == Some(rows[k].data)
    decreases k
  {
    if k > 0 {
      assert rows'[1..][..|rows[1..]|] == rows[1..];
      FirstMindMapPrefix(rows[1..], rows'[1..], groupId, k - 1);
    }
  }

  /** Failures of the model call or of validating its tool arguments leave every table as it was. */
  lemma MindMapModelFailureChangesNothing(st: Store, group: string, text: string,
                                          synthesize: MindMapRequest -> Result<ModelResponse>, fails: set<Step>)
    requires OpenCursor !in fails
    requires forall req: MindMapRequest :: synthesize(req).Raised? || ParseResponse(synthesize(req).value).Raised?
    ensures ProcessForMindmap(st, group, text, synthesize, fails).0.Ok?
    ensures ProcessForMindmap(st, group, text, synthesize, fails).1 == st
  {
  }
}

=== FILE: store.dfy ===
/** The persistent state the pipeline and the group operations share — the
    group directories under the data directory, the `project_groups`,
    `summaries` and `mindmaps` tables, and the vector collections — and the
    group create/delete/read operations over it.

    Tables are sequences in insertion order; a `SELECT ... fetchone()` sees
    the first matching row in that order. A transaction that rolls back
    leaves the store as it was before the operation. */
module Store {
  import opened Base
  import opened Json
  import Paths

  datatype GroupRow = GroupRow(id: int, name: string)
  datatype SummaryRow = SummaryRow(groupId: int, fileName: string, summary: string)

  /** A `mindmaps` row; `data` is `None` for SQL NULL. */
  datatype MindMapRow = MindMapRow(groupId: int, data: Option<Json>)

  datatype Store = Store(
    dirs: set<string>,                       // paths that exist on disk
    groups: seq<GroupRow>,                   // project_groups
    nextGroupId: int,                        // the id the next inserted group receives
    summaries: seq<SummaryRow>,              // summaries
    mindmaps: seq<MindMapRow>,               // mindmaps
    collections: map<string, seq<string>>)   // vector collections by name, chunks in upsert order

  /** The database and filesystem steps an operation may take; an operation
      is given the set of steps that fail, and the first of them it reaches raises. */
  datatype Step = OpenCursor | SelectGroup | SelectExisting | WriteRows | CommitRows | FileSystem

  /** Python truthiness of a fetched `mindmap_data` value. */
  predicate CellTruthy(cell: Option<Json>) {
    cell.Some? && Truthy(cell.value)
  }

  /** `SELECT ... FROM project_groups WHERE group_name = %s` then `fetchone()`. */
  function FindGroup(groups: seq<GroupRow>, name: string): (r: Option<GroupRow>)
    ensures r.None? <==> forall k :: 0 <= k < |groups| ==> groups[k].name != name
    ensures r.Some? ==> r.value.name == name && (exists k :: 0 <= k < |groups| && groups[k] == r.value
                                                  && forall m :: 0 <= m < k ==> groups[m].name != name)
  {
    if |groups| == 0 then None
    else if groups[0].name == name then Some(groups[0])
    else
      assert forall k :: 1 <= k < |groups| ==> groups[k] == groups[1..][k - 1];
      FindGroup(groups[1..], name)
  }

  /** `DELETE FROM project_groups WHERE group_name = %s`: the other rows, in order. */
  function RemoveNamed(groups: seq<GroupRow>, name: string): (r: seq<GroupRow>)
    ensures forall k :: 0 <= k < |r| ==> r[k].name != name && r[k] in groups
    ensures forall k :: 0 <= k < |groups| && groups[k].name != name ==> groups[k] in r
    ensures |r| <= |groups|
  {
    if |groups| == 0 then []
    else
      var rest := RemoveNamed(groups[1..], name);
      assert forall k :: 1 <= k < |groups| ==> groups[k] == groups[1..][k - 1];
      if groups[0].name == name then rest else [groups[0]] + rest
  }

  /** `SELECT mindmap_data FROM mindmaps WHERE group_id = %s` then `fetchone()`:
      the first row's value (itself possibly NULL), or `None` without a row. */
  function FirstMindMap(rows: seq<MindMapRow>, groupId: int): (r: Option<Option<Json>>)
    ensures r.None? <==> forall k :: 0 <= k < |rows| ==> rows[k].groupId != groupId
    ensures r.Some? ==> (exists k :: 0 <= k < |rows| && rows[k] == MindMapRow(groupId, r.value)
                                     && forall m :: 0 <= m < k ==> rows[m].groupId != groupId)
  {
    if |rows| == 0 then None
    else if rows[0].groupId == groupId then Some(rows[0].data)
    else
      assert forall k :: 1 <= k < |rows| ==> rows[k] == rows[1..][k - 1];
      FirstMindMap(rows[1..], groupId)
  }

  /** A row appended for a group that had none is the one the lookup finds. */
  lemma {:induction false} FirstMindMapAfterNew(rows: seq<MindMapRow>, row: MindMapRow)
    requires forall k :: 0 <= k < |rows| ==> rows[k].groupId != row.groupId
    ensures FirstMindMap(rows + [row], row.groupId) == Some(row.data)
  {
    if |rows| > 0 {
      assert (rows + [row])[1..] == rows[1..] + [row];
      FirstMindMapAfterNew(rows[1..], row);
    }
  }

  /** `SELECT file_name, summary FROM summaries WHERE group_id = %s` then `fetchall()`. */
  function SummariesOf(rows: seq<SummaryRow>, groupId: int): (r: seq<(string, string)>)
    ensures |r| <= |rows|
    ensures forall k :: 0 <= k < |rows| && rows[k].groupId == groupId ==> (rows[k].fileName, rows[k].summary) in r
    ensures forall p :: p in r ==> SummaryRow(groupId, p.0, p.1) in rows
  {
    if |rows| == 0 then []
    else
      var rest := SummariesOf(rows[1..], groupId);
      assert forall k :: 1 <= k < |rows| ==> rows[k] == rows[1..][k - 1];
      if rows[0].groupId == groupId then [(rows[0].fileName, rows[0].summary)] + rest else rest
  }

  /** Fetching a group's summaries after one more row for it is appended gives the earlier list plus that row's pair: no deduplication. */
  lemma {:induction false} SummariesOfAppend(rows: seq<SummaryRow>, row: SummaryRow)
    ensures SummariesOf(rows + [row], row.groupId) == SummariesOf(rows, row.groupId) + [(row.fileName, row.summary)]
  {
    if |rows| == 0 {
      assert rows + [row] == [row];
    } else {
      assert (rows + [row])[1..] == rows[1..] + [row];
      SummariesOfAppend(rows[1..], row);
    }
  }

  /** Appending a row for another group leaves a group's summaries as they were. */
  lemma {:induction false} SummariesOfOther(rows: seq<SummaryRow>, row: SummaryRow, groupId: int)
    requires row.groupId != groupId
    ensures SummariesOf(rows + [row], groupId) == SummariesOf(rows, groupId)
  {
    if |rows| == 0 {
      assert rows + [row] == [row];
    } else {
      assert (rows + [row])[1..] == rows[1..] + [row];
      SummariesOfOther(rows[1..], row, groupId);
    }
  }

  // ---------------------------------------------------------------------------
  // Group operations

  /** `get_project_group_by_name`: the first row with the name, or `None`. */
  function GetProjectGroupByName(st: Store, name: string): (r: Option<GroupRow>)
    ensures r.None? <==> forall k :: 0 <= k < |st.groups| ==> st.groups[k].name != name
    ensures r.Some? ==> r.value in st.groups && r.value.name == name
  {
    FindGroup(st.groups, name)
  }

  /** `create_project_group`: `None` when the group directory already exists;
      otherwise insert the row, commit, create the directory and return the
      new row. A database failure rolls back and re-raises; a directory
      failure after the commit re-raises with the row kept. */
  function CreateProjectGroup(st: Store, dataDir: string, name: string, fails: set<Step>)
    : (out: (Result<Option<GroupRow>>, Store))
    ensures Paths.PathJoin(dataDir, name) in st.dirs <==> out == (Ok(None), st)
    ensures out.0 == Ok(Some(GroupRow(st.nextGroupId, name))) ==>
      && out.1.groups == st.groups + [GroupRow(st.nextGroupId, name)]
      && out.1.dirs == st.dirs + {Paths.PathJoin(dataDir, name)}
      && out.1.nextGroupId == st.nextGroupId + 1
    ensures out.0.Ok? ==> out.0.value.None? || out.0.value == Some(GroupRow(st.nextGroupId, name))
    ensures out.0 == Raised(DbError) ==> out.1 == st
    ensures out.0 == Raised(OsError) ==>
      out.1 == st.(groups := st.groups + [GroupRow(st.nextGroupId, name)], nextGroupId := st.nextGroupId + 1)
    ensures out.0.Raised? ==> out.0.fault in {DbError, OsError}
    ensures Paths.PathJoin(dataDir, name) !in st.dirs ==>
      (out.0 == Raised(DbError) <==> OpenCursor in fails || WriteRows in fails || CommitRows in fails)
    ensures Paths.PathJoin(dataDir, name) !in st.dirs && OpenCursor !in fails && WriteRows !in fails && CommitRows !in fails ==>
      (out.0 == Raised(OsError) <==> FileSystem in fails)
    ensures out.1.summaries == st.summaries && out.1.mindmaps == st.mindmaps && out.1.collections == st.collections
  {
    var path := Paths.PathJoin(dataDir, name);
    if path in st.dirs then (Ok(None), st)
    else if OpenCursor in fails then (Raised(DbError), st)
    else if WriteRows in fails || CommitRows in fails then (Raised(DbError), st)
    else
      var row := GroupRow(st.nextGroupId, name);
      var committed := st.(groups := st.groups + [row], nextGroupId := st.nextGroupId + 1);
      if FileSystem in fails then (Raised(OsError), committed)
      else (Ok(Some(row)), committed.(dirs := st.dirs + {path}))
  }

  /** Every path at or below `path`, as `shutil.rmtree` removes them. */
  predicate Under(p: string, path: string) {
    p == path || (|p| > |path| && p[..|path| + 1] == path + "/")
  }

  /** `delete_project_group`: `False` when the group directory is absent;
      otherwise delete every row with the name, commit, remove the directory
      tree and return `True`. Summaries, mind maps and the vector collection
      are not touched. */
  function DeleteProjectGroup(st: Store, dataDir: string, name: string, fails: set<Step>)
    : (out: (Result<bool>, Store))
    ensures Paths.PathJoin(dataDir, name) !in st.dirs <==> out == (Ok(false), st)
    ensures out.0 == Ok(true) ==>
      && out.1.groups == RemoveNamed(st.groups, name)
      && (forall k :: 0 <= k < |out.1.groups| ==> out.1.groups[k].name != name)
      && (forall g :: g in st.groups && g.name != name ==> g in out.1.groups)
      && Paths.PathJoin(dataDir, name) !in out.1.dirs
      && out.1.dirs == set p | p in st.dirs && !Under(p, Paths.PathJoin(dataDir, name))
    ensures out.0 == Raised(DbError) ==> out.1 == st
    ensures out.0 == Raised(OsError) ==> out.1 == st.(groups := RemoveNamed(st.groups, name))
    ensures out.0.Raised? ==> out.0.fault in {DbError, OsError}
    ensures Paths.PathJoin(dataDir, name) in st.dirs ==>
      (out.0 == Raised(DbError) <==> OpenCursor in fails || WriteRows in fails || CommitRows in fails)
    ensures Paths.PathJoin(dataDir, name) in st.dirs && OpenCursor !in fails && WriteRows !in fails && CommitRows !in fails ==>
      (out.0 == Raised(OsError) <==> FileSystem in fails) && (out.0 == Ok(true) <==> FileSystem !in fails)
    ensures out.1.summaries == st.summaries && out.1.mindmaps == st.mindmaps && out.1.collections == st.collections
    ensures out.1.nextGroupId == st.nextGroupId
  {
    var path := Paths.PathJoin(dataDir, name);
    if path !in st.dirs then (Ok(false), st)
    else if OpenCursor in fails then (Raised(DbError), st)
    else if WriteRows in fails || CommitRows in fails then (Raised(DbError), st)
    else
      var committed := st.(groups := RemoveNamed(st.groups, name));
      if FileSystem in fails then (Raised(OsError), committed)
      else (Ok(true), committed.(dirs := set p | p in st.dirs && !Under(p, path)))
  }

  /** `get_mindmap`: `None` for an unknown group or a group without a row;
      otherwise the first row's value, which may be NULL. */
  function GetMindmap(st: Store, name: string): (r: Option<Option<Json>>)
    ensures FindGroup(st.groups, name).None? ==> r.None?
    ensures r.Some? ==> exists g :: g in st.groups && g.name == name && MindMapRow(g.id, r.value) in st.mindmaps
    ensures FindGroup(st.groups, name).Some? ==>
      (r.None? <==> forall k :: 0 <= k < |st.mindmaps| ==> st.mindmaps[k].groupId != FindGroup(st.groups, name).value.id)
    ensures FindGroup(st.groups, name).Some? ==>
      forall k :: 0 <= k < |st.mindmaps| && st.mindmaps[k].groupId == FindGroup(st.groups, name).value.id
        && (forall m :: 0 <= m < k ==> st.mindmaps[m].groupId != FindGroup(st.groups, name).value.id)
        ==> r == Some(st.mindmaps[k].data)
  {
    match FindGroup(st.groups, name)
    case None => None
    case Some(g) => FirstMindMap(st.mindmaps, g.id)
  }

  /** `get_summaries`: `[]` for an unknown group; otherwise every summary row of the group, duplicates included. */
  function GetSummaries(st: Store, name: string): (r: seq<(string, string)>)
    ensures FindGroup(st.groups, name).None? ==> r == []
    ensures FindGroup(st.groups, name).Some? ==>
      forall k :: 0 <= k < |st.summaries| && st.summaries[k].groupId == FindGroup(st.groups, name).value.id
        ==> (st.summaries[k].fileName, st.summaries[k].summary) in r
    ensures forall p :: p in r ==> exists g :: g in st.groups && g.name == name && SummaryRow(g.id, p.0, p.1) in st.summaries
  {
    match FindGroup(st.groups, name)
    case None => []
    case Some(g) => SummariesOf(st.summaries, g.id)
  }

  /** Creating a group whose name no row holds yet makes it the group found by name. */
  lemma CreateThenFind(st: Store, dataDir: string, name: string, fails: set<Step>)
    requires forall k :: 0 <= k < |st.groups| ==> st.groups[k].name != name
    requires CreateProjectGroup(st, dataDir, name, fails).0.Ok?
    requires CreateProjectGroup(st, dataDir, name, fails).0.value.Some?
    ensures GetProjectGroupByName(CreateProjectGroup(st, dataDir, name, fails).1, name)
      == Some(GroupRow(st.nextGroupId, name))
  {
    var st' := CreateProjectGroup(st, dataDir, name, fails).1;
    assert st'.groups[|st.groups|] == GroupRow(st.nextGroupId, name);
  }

  /** A deleted group is no longer found, and reading its mind map or summaries gives `None` and `[]`. */
  lemma DeleteThenRead(st: Store, dataDir: string, name: string, fails: set<Step>)
    requires DeleteProjectGroup(st, dataDir, name, fails).0 == Ok(true)
    ensures var st' := DeleteProjectGroup(st, dataDir, name, fails).1;
      GetProjectGroupByName(st', name).None? && GetMindmap(st', name).None? && GetSummaries(st', name) == []
  {
  }
}

=== FILE: text.dfy ===
/** The two string operations of the pipeline: `sep.join(parts)` building a
    document's full text, and `str.strip()` trimming a generated summary. */
module Text {

  /** The separator placed between loaded elements. */
  const ElementSeparator: string := "\n\n"

  /** `sep.join(parts)`. */
  function Join(parts: seq<string>, sep: string): string
  {
    if |parts| == 0 then ""
    else if |parts| == 1 then parts[0]
    else parts[0] + sep + Join(parts[1..], sep)
  }

  /** Total length of the parts. */
  function TotalLength(parts: seq<string>): nat
  {
    if |parts| == 0 then 0 else |parts[0]| + TotalLength(parts[1..])
  }

  /** The full text of a loaded document: the elements' contents joined by a blank line, in load order. */
  function FullText(elements: seq<string>): (r: string)
    ensures |elements| == 0 ==> r == ""
    ensures |elements| > 0 ==> |r| == TotalLength(elements) + (|elements| - 1) * |ElementSeparator|
  {
    if |elements| == 0 then ""
    else JoinLength(elements, ElementSeparator); Join(elements, ElementSeparator)
  }

  /** Joining two non-empty lists puts exactly one separator between their joins. */
  lemma {:induction false} JoinAppend(a: seq<string>, b: seq<string>, sep: string)
    requires |a| > 0 && |b| > 0
    ensures Join(a + b, sep) == Join(a, sep) + sep + Join(b, sep)
  {
    if |a| == 1 {
      assert (a + b)[1..] == b;
    } else {
      assert (a + b)[1..] == a[1..] + b;
      JoinAppend(a[1..], b, sep);
    }
  }

  /** The joined text holds every character of every part plus one separator between neighbours. */
  lemma {:induction false} JoinLength(parts: seq<string>, sep: string)
    requires |parts| > 0
    ensures |Join(parts, sep)| == TotalLength(parts) + (|parts| - 1) * |sep|
  {
    if |parts| > 1 {
      JoinLength(parts[1..], sep);
    }
  }

  /** The full text begins with the first element and ends with the last. */
  lemma {:induction false} FullTextBounds(elements: seq<string>)
    requires |elements| > 0
    ensures FullText(elements)[..|elements[0]|] == elements[0]
    ensures |FullText(elements)| >= |elements[|elements| - 1]|
    ensures FullText(elements)[|FullText(elements)| - |elements[|elements| - 1]|..] == elements[|elements| - 1]
  {
    if |elements| > 1 {
      var rest := elements[1..];
      FullTextBounds(rest);
      assert elements[|elements| - 1] == rest[|rest| - 1];
    }
  }

  /** The characters for which Python's `str.isspace()` holds: space, tab to
      carriage return, the four information separators, NEL, no-break space,
      Ogham space mark, the eleven spaces U+2000 to U+200A, line and paragraph
      separators, narrow no-break, medium mathematical and ideographic space. */
  const Whitespace: set<char> := {
    ' ', '\t', '\n', '\U{b}', '\U{c}', '\r', '\U{1c}', '\U{1d}', '\U{1e}', '\U{1f}', '\U{85}', '\U{a0}',
    '\U{1680}', '\U{2000}', '\U{2001}', '\U{2002}', '\U{2003}', '\U{2004}', '\U{2005}', '\U{2006}',
    '\U{2007}', '\U{2008}', '\U{2009}', '\U{200a}', '\U{2028}', '\U{2029}', '\U{202f}', '\U{205f}', '\U{3000}'
  }

  predicate IsSpace(c: char) {
    c in Whitespace
  }

  function StripLeft(s: string): (r: string)
    ensures |r| <= |s| && r == s[|s| - |r|..]
    ensures forall k :: 0 <= k < |s| - |r| ==> IsSpace(s[k])
    ensures |r| > 0 ==> !IsSpace(r[0])
  {
    if |s| > 0 && IsSpace(s[0]) then
      var r := StripLeft(s[1..]);
      assert s[1..][|s| - 1 - |r|..] == s[|s| - |r|..];
      assert forall k :: 1 <= k < |s| ==> s[k] == s[1..][k - 1];
      r
    else s
  }

  function StripRight(s: string): (r: string)
    ensures |r| <= |s| && r == s[..|r|]
    ensures forall k :: |r| <= k < |s| ==> IsSpace(s[k])
    ensures |r| > 0 ==> !IsSpace(r[|r| - 1])
  {
    if |s| > 0 && IsSpace(s[|s| - 1]) then
      var r := StripRight(s[..|s| - 1]);
      assert s[..|s| - 1][..|r|] == s[..|r|];
      assert forall k :: 0 <= k < |s| - 1 ==> s[k] == s[..|s| - 1][k];
      r
    else s
  }

  /** `str.strip()`: leading and trailing whitespace cut away. */
  function Strip(s: string): (r: string)
    ensures |r| <= |s|
    ensures |r| > 0 ==> !IsSpace(r[0]) && !IsSpace(r[|r| - 1])
    ensures r == "" <==> forall k :: 0 <= k < |s| ==> IsSpace(s[k])
  {
    var l := StripLeft(s);
    var r := StripRight(l);
    assert |r| > 0 ==> r[0] == l[0];
    r
  }

  /** The stripped text is one contiguous slice of the input, and only whitespace lies outside it. */
  lemma {:induction false} StripIsSlice(s: string)
    ensures |s| - |StripLeft(s)| + |Strip(s)| <= |s|
    ensures Strip(s) == s[|s| - |StripLeft(s)|..|s| - |StripLeft(s)| + |Strip(s)|]
    ensures forall k :: 0 <= k < |s| - |StripLeft(s)| ==> IsSpace(s[k])
    ensures forall k :: |s| - |StripLeft(s)| + |Strip(s)| <= k < |s| ==> IsSpace(s[k])
  {
    StripSlice(s);
    assert Strip(s) == StripRight(StripLeft(s));
    SuffixFacts(s, StripLeft(s), Strip(s));
  }

  /** The slice half of StripIsSlice. */
  lemma {:induction false} StripSlice(s: string)
    ensures |s| - |StripLeft(s)| + |Strip(s)| <= |s|
    ensures Strip(s) == s[|s| - |StripLeft(s)|..|s| - |StripLeft(s)| + |Strip(s)|]
  {
    assert Strip(s) == StripRight(StripLeft(s));
    SuffixFacts(s, StripLeft(s), Strip(s));
  }

  /** What holds of `s` when `l` is one of its suffixes and `r` a prefix of `l` followed only by whitespace. */
  lemma {:induction false} SuffixFacts(s: string, l: string, r: string)
    requires |l| <= |s| && l == s[|s| - |l|..] && |r| <= |l| && r == l[..|r|]
    requires forall k :: |r| <= k < |l| ==> IsSpace(l[k])
    ensures |s| - |l| + |r| <= |s| && r == s[|s| - |l|..|s| - |l| + |r|]
    ensures forall k :: |s| - |l| + |r| <= k < |s| ==> IsSpace(s[k])
  {
    forall k | |s| - |l| + |r| <= k < |s| ensures IsSpace(s[k]) {
      assert s[k] == l[k - (|s| - |l|)];
    }
  }

  /** Stripping twice changes nothing more. */
  lemma StripIdempotent(s: string)
    ensures Strip(Strip(s)) == Strip(s)
  {
    var t := Strip(s);
    assert StripLeft(t) == t;
    assert StripRight(t) == t;
  }
}

=== FILE: worker.dfy ===
/** The queue consumer: the per-message callback that decides ack or nack,
    and the one-message-at-a-time consumption loop. */
module Worker {
  import opened Base
  import opened Json
  import opened Text
  import opened MindMap
  import opened Store
  import opened Stages
  import Paths

  /** A delivered message body: JSON text, or bytes `json.loads` rejects. */
  datatype Body = NotJson | Decoded(value: Json)

  /** The two fields the upload handler puts in each message. */
  datatype Envelope = Envelope(projectGroup: string, fileName: string)

  /** The outcome of every external call one job makes. */
  datatype Oracles = Oracles(
    connects: bool,                                        // opening the job's database connection
    workerLoad: string -> Result<seq<string>>,             // the callback's own load of the document at a path
    ragLoad: string -> Result<seq<string>>,                // the indexing stage's load
    summaryLoad: string -> Result<seq<string>>,            // the summary stage's load
    split: string -> seq<string>,                          // the text splitter
    indexOk: bool,                                         // the vector-store upsert
    summarize: string -> Result<string>,                   // the summary model call, given the full text
    summaryFails: set<Step>,                               // failing statements in the summary stage
    synthesize: MindMapRequest -> Result<ModelResponse>,   // the mind-map model call
    mindmapFails: set<Step>)                               // failing statements in the mind-map stage

  /** What the callback does to the delivery: ack, nack without requeue, or
      neither because an exception escaped before the `try`. */
  datatype Decision = Ack | Nack | Escaped(fault: Fault)

  datatype Stage = Extract | Index | Summarize | MindMapStage

  /** The fixed stage order. */
  const StageOrder: seq<Stage> := [Extract, Index, Summarize, MindMapStage]

  /** The callback's result: its decision, whether it closed the connection,
      the stages it started in order, and the store afterwards. */
  datatype JobOutcome = JobOutcome(decision: Decision, closed: bool, started: seq<Stage>, store: Store)

  /** Whether `d.get(key)` is a string. */
  predicate HasString(members: seq<(string, Json)>, key: string) {
    Get(members, key).Some? && Get(members, key).value.JStr?
  }

  /** Decoding the body and reading its two fields, all before the `try`:
      the body must be JSON, decode to an object, and carry string values for
      both fields (a missing one reads as `None`, which the path join rejects). */
  function ParseBody(body: Body): (r: Result<Envelope>)
    ensures body.NotJson? <==> r == Raised(JsonDecodeError)
    ensures body.Decoded? && !body.value.JObj? <==> r == Raised(AttributeError)
    ensures r.Ok? <==>
      body.Decoded? && body.value.JObj?
      && HasString(body.value.members, "project_group") && HasString(body.value.members, "file_name")
    ensures r.Ok? ==>
      && Get(body.value.members, "project_group") == Some(JStr(r.value.projectGroup))
      && Get(body.value.members, "file_name") == Some(JStr(r.value.fileName))
    ensures r.Raised? ==> r.fault in {JsonDecodeError, AttributeError, TypeError}
  {
    if body.NotJson? then Raised(JsonDecodeError)
    else if !body.value.JObj? then Raised(AttributeError)
    else
      var file := Get(body.value.members, "file_name");
      var group := Get(body.value.members, "project_group");
      if file.Some? && file.value.JStr? && group.Some? && group.value.JStr?
      then Ok(Envelope(group.value.s, file.value.s))
      else Raised(TypeError)
  }

  /** The message the upload handler publishes for a stored file. */
  function EnvelopeBody(e: Envelope): Json {
    JObj([("project_group", JStr(e.projectGroup)), ("file_name", JStr(e.fileName))])
  }

  /** A published message is read back as the envelope that was sent. */
  lemma EnvelopeRoundTrip(e: Envelope)
    ensures ParseBody(Decoded(EnvelopeBody(e))) == Ok(e)
  {
    var ms := EnvelopeBody(e).members;
    assert LastIndexOf(ms, "file_name") == Some(1);
    assert LastIndexOf(ms, "project_group") == Some(0);
  }

  /** `callback`: parse, build the path and connect before the `try`; inside
      it, load the document, then index, summarize and build the mind map in
      that order, each only after the previous one returned; ack when all
      return, nack without requeue on the first exception; close the
      connection in `finally`. */
  function Callback(st: Store, dataDir: string, body: Body, o: Oracles): (out: JobOutcome)
    ensures out.decision.Escaped? <==> ParseBody(body).Raised? || !o.connects
    ensures out.decision.Escaped? ==> out.store == st && out.started == []
    ensures out.closed <==> !out.decision.Escaped?
    ensures out.started <= StageOrder
    ensures out.decision == Ack ==> out.started == StageOrder
    ensures out.decision == Nack ==> |out.started| > 0
  {
    match ParseBody(body)
    case Raised(f) => JobOutcome(Escaped(f), false, [], st)
    case Ok(env) =>
      if !o.connects then JobOutcome(Escaped(DbError), false, [], st)
      else
        var path := Paths.DocumentPath(dataDir, env.projectGroup, env.fileName);
        var elements := o.workerLoad(path);
        if elements.Raised? then JobOutcome(Nack, true, [Extract], st)
        else
          var fullText := FullText(elements.value);
          var (r1, st1) := ProcessForRag(st, path, env.projectGroup, o.ragLoad, o.split, o.indexOk);
          if r1.Raised? then JobOutcome(Nack, true, [Extract, Index], st1)
          else
            var (r2, st2) := ProcessForSummary(st1, path, env.projectGroup, o.summaryLoad, o.summarize, o.summaryFails);
            if r2.Raised? then JobOutcome(Nack, true, [Extract, Index, Summarize], st2)
            else
              var (r3, st3) := ProcessForMindmap(st2, env.projectGroup, fullText, o.synthesize, o.mindmapFails);
              if r3.Raised? then JobOutcome(Nack, true, StageOrder, st3)
              else JobOutcome(Ack, true, StageOrder, st3)
  }

  /** No stage lets an exception out for the document at `path`: the
      callback's load, the whole indexing stage, everything before the
      summary stage's `try`, and the two cursor openings succeed. */
  predicate StagesReturn(o: Oracles, path: string) {
    && o.workerLoad(path).Ok?
    && o.ragLoad(path).Ok? && o.indexOk
    && o.summaryLoad(path).Ok? && o.summarize(FullText(o.summaryLoad(path).value)).Ok?
    && OpenCursor !in o.summaryFails
    && OpenCursor !in o.mindmapFails
  }

  /** The document path of a parsed envelope. */
  function PathOf(dataDir: string, e: Envelope): string {
    Paths.DocumentPath(dataDir, e.projectGroup, e.fileName)
  }

  /** A job is acked exactly when its envelope parses, the connection opens
      and no stage lets an exception out; it is nacked exactly when an
      exception leaves a stage after that. */
  lemma AckExactly(st: Store, dataDir: string, body: Body, o: Oracles)
    ensures Callback(st, dataDir, body, o).decision == Ack
      <==> ParseBody(body).Ok? && o.connects && StagesReturn(o, PathOf(dataDir, ParseBody(body).value))
    ensures Callback(st, dataDir, body, o).decision == Nack
      <==> ParseBody(body).Ok? && o.connects && !StagesReturn(o, PathOf(dataDir, ParseBody(body).value))
  {
    if ParseBody(body).Ok? && o.connects {
      DecisionStages(st, dataDir, body, o);
    }
  }

  /** Once the envelope parses and the connection opens, the job is acked
      exactly when every stage returns, and nacked otherwise. */
  lemma DecisionStages(st: Store, dataDir: string, body: Body, o: Oracles)
    requires ParseBody(body).Ok? && o.connects
    ensures Callback(st, dataDir, body, o).decision
            == if StagesReturn(o, PathOf(dataDir, ParseBody(body).value)) then Ack else Nack
  {
    var env := ParseBody(body).value;
    var path := PathOf(dataDir, env);
    if o.workerLoad(path).Ok? {
      var (r1, st1) := ProcessForRag(st, path, env.projectGroup, o.ragLoad, o.split, o.indexOk);
      if r1.Ok? {
        var (r2, st2) := ProcessForSummary(st1, path, env.projectGroup, o.summaryLoad, o.summarize, o.summaryFails);
        if r2.Ok? {
          var (r3, st3) := ProcessForMindmap(st2, env.projectGroup, FullText(o.workerLoad(path).value), o.synthesize, o.mindmapFails);
          assert r3.Ok? <==> StagesReturn(o, path);
        }
      }
    }
  }

  /** A nacked job's last started stage is the one whose exception escaped,
      and every earlier stage returned. */
  lemma NackNamesFailingStage(st: Store, dataDir: string, body: Body, o: Oracles)
    requires Callback(st, dataDir, body, o).decision == Nack
    ensures var started := Callback(st, dataDir, body, o).started;
            var path := PathOf(dataDir, ParseBody(body).value);
            && (started == [Extract] <==> o.workerLoad(path).Raised?)
            && (started == [Extract, Index] <==>
                 o.workerLoad(path).Ok? && (o.ragLoad(path).Raised? || !o.indexOk))
            && (started == [Extract, Index, Summarize] <==>
                 o.workerLoad(path).Ok? && o.ragLoad(path).Ok? && o.indexOk
                 && (o.summaryLoad(path).Raised? || o.summarize(FullText(o.summaryLoad(path).value)).Raised?
                     || OpenCursor in o.summaryFails))
            && (started == StageOrder <==> StagesReturnBeforeMindMap(o, path) && OpenCursor in o.mindmapFails)
  {
    AckExactly(st, dataDir, body, o);
    StartedStages(st, dataDir, body, o);
    DecisionStages(st, dataDir, body, o);
    NackCases(Callback(st, dataDir, body, o), o, PathOf(dataDir, ParseBody(body).value));
  }

  /** The stage reasoning behind NackNamesFailingStage, on any outcome whose
      decision and started stages are those of the callback for `path`. */
  lemma NackCases(out: JobOutcome, o: Oracles, path: string)
    requires out.decision == Nack
    requires out.decision == if StagesReturn(o, path) then Ack else Nack
    requires out.started
             == if o.workerLoad(path).Raised? then [Extract]
                else if o.ragLoad(path).Raised? || !o.indexOk then [Extract, Index]
                else if o.summaryLoad(path).Raised? || o.summarize(FullText(o.summaryLoad(path).value)).Raised?
                        || OpenCursor in o.summaryFails then [Extract, Index, Summarize]
                else StageOrder
    ensures out.started == [Extract] <==> o.workerLoad(path).Raised?
    ensures out.started == [Extract, Index] <==> o.workerLoad(path).Ok? && (o.ragLoad(path).Raised? || !o.indexOk)
    ensures out.started == [Extract, Index, Summarize] <==>
              o.workerLoad(path).Ok? && o.ragLoad(path).Ok? && o.indexOk
              && (o.summaryLoad(path).Raised? || o.summarize(FullText(o.summaryLoad(path).value)).Raised?
                  || OpenCursor in o.summaryFails)
    ensures out.started == StageOrder <==> StagesReturnBeforeMindMap(o, path) && OpenCursor in o.mindmapFails
  {
    StartedCases(out.started, o.workerLoad(path).Raised?, o.ragLoad(path).Raised? || !o.indexOk,
                 o.summaryLoad(path).Raised? || o.summarize(FullText(o.summaryLoad(path).value)).Raised? || OpenCursor in o.summaryFails);
  }

  /** The four prefixes of the stage order are told apart by the first failing step. */
  lemma StartedCases(started: seq<Stage>, extractFails: bool, indexFails: bool, summaryFails: bool)
    requires started == if extractFails then [Extract]
                        else if indexFails then [Extract, Index]
                        else if summaryFails then [Extract, Index, Summarize]
                        else StageOrder
    ensures started == [Extract] <==> extractFails
    ensures started == [Extract, Index] <==> !extractFails && indexFails
    ensures started == [Extract, Index, Summarize] <==> !extractFails && !indexFails && summaryFails
    ensures started == StageOrder <==> !extractFails && !indexFails && !summaryFails
  {
    assert |started| == if extractFails then 1 else if indexFails then 2 else if summaryFails then 3 else 4;
  }

  /** The stages a delivered job starts, as a function of the oracles: it
      stops right after the first stage that lets an exception out. */
  lemma StartedStages(st: Store, dataDir: string, body: Body, o: Oracles)
    requires ParseBody(body).Ok? && o.connects
    ensures var path := PathOf(dataDir, ParseBody(body).value);
            Callback(st, dataDir, body, o).started
            == if o.workerLoad(path).Raised? then [Extract]
               else if o.ragLoad(path).Raised? || !o.indexOk then [Extract, Index]
               else if o.summaryLoad(path).Raised? || o.summarize(FullText(o.summaryLoad(path).value)).Raised?
                       || OpenCursor in o.summaryFails then [Extract, Index, Summarize]
               else StageOrder
  {
    var env := ParseBody(body).value;
    var path := PathOf(dataDir, env);
    var out := Callback(st, dataDir, body, o);
    if o.workerLoad(path).Raised? {
      assert out.started == [Extract];
    } else {
      var (r1, st1) := ProcessForRag(st, path, env.projectGroup, o.ragLoad, o.split, o.indexOk);
      if r1.Raised? {
        assert out.started == [Extract, Index];
      } else {
        var (r2, st2) := ProcessForSummary(st1, path, env.projectGroup, o.summaryLoad, o.summarize, o.summaryFails);
        if r2.Raised? {
          assert out.started == [Extract, Index, Summarize];
        } else {
          assert out.started == StageOrder;
        }
      }
    }
  }

  /** Everything up to the mind-map stage returns. */
  predicate StagesReturnBeforeMindMap(o: Oracles, path: string) {
    && o.workerLoad(path).Ok?
    && o.ragLoad(path).Ok? && o.indexOk
    && o.summaryLoad(path).Ok? && o.summarize(FullText(o.summaryLoad(path).value)).Ok?
    && OpenCursor !in o.summaryFails
  }

  /** Indexing commits before the later stages run: when the summary stage's
      own load fails, the job is nacked but the new chunks stay in the group's collection. */
  lemma NackKeepsIndexedChunks(st: Store, dataDir: string, body: Body, o: Oracles)
    requires ParseBody(body).Ok? && o.connects
    requires var path := PathOf(dataDir, ParseBody(body).value);
      o.workerLoad(path).Ok? && o.ragLoad(path).Ok? && o.indexOk && o.summaryLoad(path).Raised?
    ensures var out := Callback(st, dataDir, body, o);
            var group := ParseBody(body).value.projectGroup;
            var path := PathOf(dataDir, ParseBody(body).value);
            && out.decision == Nack
            && group in out.store.collections
            && out.store.collections[group]
               == (if group in st.collections then st.collections[group] else [])
                  + o.split(FullText(o.ragLoad(path).value))
  {
  }

  /** Failures the mind-map stage swallows still end in an ack, and leave the mind maps as they were. */
  lemma MindMapFailureStillAcks(st: Store, dataDir: string, body: Body, o: Oracles)
    requires ParseBody(body).Ok? && o.connects && StagesReturn(o, PathOf(dataDir, ParseBody(body).value))
    requires forall req: MindMapRequest :: o.synthesize(req).Raised? || ParseResponse(o.synthesize(req).value).Raised?
    ensures Callback(st, dataDir, body, o).decision == Ack
    ensures Callback(st, dataDir, body, o).store.mindmaps == st.mindmaps
  {
    var env := ParseBody(body).value;
    var path := PathOf(dataDir, env);
    var st1 := ProcessForRag(st, path, env.projectGroup, o.ragLoad, o.split, o.indexOk).1;
    var st2 := ProcessForSummary(st1, path, env.projectGroup, o.summaryLoad, o.summarize, o.summaryFails).1;
    MindMapModelFailureChangesNothing(st2, env.projectGroup, FullText(o.workerLoad(path).value), o.synthesize, o.mindmapFails);
  }

  /** A summary statement failure is swallowed too: the job is still acked, with no summary row added. */
  lemma SummaryDbFailureStillAcks(st: Store, dataDir: string, body: Body, o: Oracles)
    requires ParseBody(body).Ok? && o.connects && StagesReturn(o, PathOf(dataDir, ParseBody(body).value))
    requires SelectGroup in o.summaryFails || WriteRows in o.summaryFails || CommitRows in o.summaryFails
    ensures Callback(st, dataDir, body, o).decision == Ack
    ensures Callback(st, dataDir, body, o).store.summaries == st.summaries
  {
  }

  /** A job whose group row is gone writes no summary and no mind map, and is still acked when nothing else fails. */
  lemma DeletedGroupWritesNothing(st: Store, dataDir: string, body: Body, o: Oracles)
    requires ParseBody(body).Ok? && o.connects && StagesReturn(o, PathOf(dataDir, ParseBody(body).value))
    requires FindGroup(st.groups, ParseBody(body).value.projectGroup).None?
    ensures Callback(st, dataDir, body, o).decision == Ack
    ensures Callback(st, dataDir, body, o).store.summaries == st.summaries
    ensures Callback(st, dataDir, body, o).store.mindmaps == st.mindmaps
  {
    var env := ParseBody(body).value;
    var path := PathOf(dataDir, env);
    var (r1, st1) := ProcessForRag(st, path, env.projectGroup, o.ragLoad, o.split, o.indexOk);
    assert st1.groups == st.groups && st1.summaries == st.summaries && st1.mindmaps == st.mindmaps;
    var (r2, st2) := ProcessForSummary(st1, path, env.projectGroup, o.summaryLoad, o.summarize, o.summaryFails);
    assert r2.Ok? && st2 == st1;
    var (r3, st3) := ProcessForMindmap(st2, env.projectGroup, FullText(o.workerLoad(path).value), o.synthesize, o.mindmapFails);
    assert r3.Ok? && st3 == st2;
  }

  /** The summary row the job writes names the file of the envelope when that name holds no '/'. */
  lemma SummaryRowNamesEnvelopeFile(st: Store, dataDir: string, body: Body, o: Oracles)
    requires ParseBody(body).Ok? && o.connects && StagesReturn(o, PathOf(dataDir, ParseBody(body).value))
    requires '/' !in ParseBody(body).value.fileName
    requires SummaryWrites(st, ParseBody(body).value.projectGroup, o.summaryFails)
    ensures var out := Callback(st, dataDir, body, o);
            && |out.store.summaries| == |st.summaries| + 1
            && out.store.summaries[|st.summaries|].fileName == ParseBody(body).value.fileName
  {
    var env := ParseBody(body).value;
    Paths.BasenameOfDocumentPath(dataDir, env.projectGroup, env.fileName);
  }

  // ---------------------------------------------------------------------------
  // Consumption with prefetch 1

  /** `start_consuming` with `prefetch_count=1`, the consumer running
      `handle` (the callback above) on each delivery: deliveries are handled
      one at a time, each on the store its predecessor left (`stores[k]` is
      the store delivery `k` sees) and decided before the next one is
      delivered. An exception escaping the callback ends consumption, with
      that delivery left unacknowledged. */
  method Consume<M>(st: Store, ds: seq<M>, handle: (Store, M) -> JobOutcome)
    returns (decisions: seq<Decision>, stores: seq<Store>)
    ensures |decisions| <= |ds| && |stores| == |decisions| + 1 && stores[0] == st
    ensures forall k :: 0 <= k < |decisions| ==>
      decisions[k] == handle(stores[k], ds[k]).decision && stores[k + 1] == handle(stores[k], ds[k]).store
    ensures forall k :: 0 <= k < |decisions| - 1 ==> !decisions[k].Escaped?
    ensures |decisions| < |ds| ==> |decisions| > 0 && decisions[|decisions| - 1].Escaped?
  {
    decisions := [];
    stores := [st];
    var stopped := false;
    while |decisions| < |ds| && !stopped
      invariant |decisions| <= |ds| && |stores| == |decisions| + 1 && stores[0] == st
      invariant forall k :: 0 <= k < |decisions| ==>
        decisions[k] == handle(stores[k], ds[k]).decision && stores[k + 1] == handle(stores[k], ds[k]).store
      invariant !stopped ==> forall k :: 0 <= k < |decisions| ==> !decisions[k].Escaped?
      invariant stopped ==> |decisions| > 0 && decisions[|decisions| - 1].Escaped?
      invariant stopped ==> forall k :: 0 <= k < |decisions| - 1 ==> !decisions[k].Escaped?
      decreases |ds| - |decisions|
    {
      var out := handle(stores[|decisions|], ds[|decisions|]);
      decisions := decisions + [out.decision];
      stores := stores + [out.store];
      stopped := out.decision.Escaped?;
    }
  }

  /** The worker: `Consume` with the callback over one data directory. */
  method RunWorker(st: Store, dataDir: string, ds: seq<(Body, Oracles)>)
    returns (decisions: seq<Decision>, stores: seq<Store>)
    ensures |decisions| <= |ds| && |stores| == |decisions| + 1 && stores[0] == st
    ensures forall k :: 0 <= k < |decisions| ==>
      decisions[k] == Callback(stores[k], dataDir, ds[k].0, ds[k].1).decision
      && stores[k + 1] == Callback(stores[k], dataDir, ds[k].0, ds[k].1).store
    ensures (forall k :: 0 <= k < |ds| ==> ParseBody(ds[k].0).Ok? && ds[k].1.connects) ==> |decisions| == |ds|
  {
    decisions, stores := Consume(st, ds, (s: Store, d: (Body, Oracles)) => Callback(s, dataDir, d.0, d.1));
  }
}
